=== FILE: README.md ===
# Point-of-sale store, modelled in Dafny

This project models the client-side state store of a point-of-sale web
application: the `useStore` store in `src/store/useStore.ts`. The store holds:

- the signed-in cashier;
- the product catalogue;
- the live cart and the customer cart tabs;
- the sales history, the notification log and the suppliers;
- the open shift and the shift history;
- the connectivity flag and the counter of sales still waiting to be synced.

Its actions change these fields one step at a time.

The store is the class `Store.PosStore`. Its fields are the store's state and
its methods are the store's actions. Each method's `modifies` clause names
the fields the action writes, so "nothing else changes" is checked by Dafny.
Each method is stated against a pure function of the old state. Those
functions are defined module by module:

- `Cart`: cart lines and `getCartTotal`.
- `Tabs`: the cart tab manager.
- `Catalog`: stock adjustment, product edits and `getLowStockProducts`.
- `Notices`: the notification log, capped at 50.
- `Ledger`: the sales history, `getSalesTotal` and the sync reconciliation.
- `Suppliers`: the supplier list.
- `Checkout`: sale finalisation.

Lemmas about these functions state what the store promises.

The class invariant `Valid()` holds before and after every action. It says:

- there is at least one tab, and tab ids are distinct;
- the active tab id names a tab;
- every cart, live or saved, has one line per product;
- the log holds at most 50 notifications;
- the pending counter equals the number of unsynced sales;
- the shift flag agrees with the open shift;
- the authenticated flag agrees with the signed-in user.

Numbers are exact `real`s. Every clock reading is a `now: nat` parameter.
Ids are built the way the store builds them, as a prefix followed by the clock
reading, for example `sale-<ms>` or `tab-<ms>`.

`Scenarios` states outright the final state of short sequences of actions
from a fresh store:

- a checkout with no shift open;
- three offline sales followed by reconnection;
- two customers on two tabs;
- stock at the edges of the low-stock alert.

Three behaviours of the store are worth stating:

- `completeSale` does not check for an open shift. The only shift gate is a
  UI overlay in `src/components/pos/POSPage.tsx:248`. `Scenarios.CheckoutWithoutShift`
  shows a sale going through with no shift open.
- `startShift` replaces a shift that is already open. The replaced shift is
  lost without being archived.
- `syncPendingSales` only flips the `synced` flags and resets the counter. It
  does not re-send anything to the server.

## Model

| member | source | states |
|---|---|---|
| Entities.StampedId | src/store/useStore.ts:388 | an id is the prefix followed by the decimal digits of the clock reading |
| Prelude.DecimalInjective | src/store/useStore.ts:388 | different clock readings have different decimal forms |
| Entities.StampedIdInjective | src/store/useStore.ts:532 | ids stamped with one prefix at different clock readings differ |
| Store.PosStore.Valid | src/store/useStore.ts:142-186 | the store invariant listed above, which the initial state establishes and every action keeps |
| Store.PosStore.constructor | src/store/useStore.ts:142-186 | the initial state: no user, one empty tab `tab-1` labelled "Customer 1" and active, empty cart, sales, notifications and shifts, the three seed suppliers, a pending counter of 0, connectivity as given; the invariant holds |
| Store.PosStore.SetCurrentUser | src/store/useStore.ts:189-193 | the user is set and `isAuthenticated` is true exactly when there is one |
| Store.PosStore.Logout | src/store/useStore.ts:214-216 | user cleared, not authenticated, live cart emptied; shift and tabs untouched |
| Store.PosStore.ReceiveProducts | src/store/useStore.ts:165 | a completed catalogue fetch replaces the catalogue with what was received |
| Store.PosStore.ReceiveNewProduct | src/store/useStore.ts:272 | a completed product creation appends the product the server returned; nothing else changes |
| Catalog.Patched | src/store/useStore.ts:281 | each of the nine fields is the patch's where present and the product's otherwise |
| Catalog.UpdateProducts | src/store/useStore.ts:278-282 | every product with the id is patched; all others stay as they were; length kept |
| Catalog.EmptyPatchChangesNothing | src/store/useStore.ts:281 | an update with no fields leaves the catalogue unchanged |
| Store.PosStore.UpdateProduct | src/store/useStore.ts:278-282 | the catalogue becomes `UpdateProducts` of the old one; nothing else changes |
| Catalog.DeleteProducts | src/store/useStore.ts:295-299 | no product with the id remains; every other product is kept; nothing is added |
| Catalog.DeleteProductsDistinct | src/store/useStore.ts:295-299 | with distinct ids, exactly that product is removed and the others keep their order |
| Store.PosStore.DeleteProduct | src/store/useStore.ts:295-299 | the catalogue becomes `DeleteProducts` of the old one |
| Catalog.Clamp | src/store/useStore.ts:316 | `max(0, x)`: never negative, at least `x`, equal to `x` when `x >= 0` and to 0 when `x < 0` |
| Catalog.FindProduct | src/store/useStore.ts:310 | the first product with the id, or none; what it finds has that id, and `FindProductSpec` states when it fails |
| Catalog.FindProductSpec | src/store/useStore.ts:310 | the lookup fails exactly when no product has the id; a product it finds is in the catalogue |
| Catalog.FindProductDistinct | src/store/useStore.ts:310 | with distinct ids, looking up a product's id finds that product |
| Catalog.AdjustStock | src/store/useStore.ts:314-318 | the catalogue keeps its length; its effect on each product is `AdjustStockEffect` |
| Catalog.FindProductAfterAdjust | src/store/useStore.ts:310-318 | with distinct ids, adjusting one product's stock does not change the lookup of any other id |
| Catalog.AdjustStockEffect | src/store/useStore.ts:309-318 | an unknown id changes nothing; products with another id are untouched; a matching product gets the found product's stock plus delta, clamped at 0 |
| Catalog.AdjustStockSpec | src/store/useStore.ts:309-339 | with distinct ids, only the stock of that product changes, to `max(0, stock + delta)`, and ids stay distinct; a low-stock notice is raised if and only if `0 < stock + delta <= threshold`, and it names the product and the unclamped new stock |
| Catalog.AdjustStockKeepsIds | src/store/useStore.ts:315-317 | adjusting stock keeps every id, so distinct ids stay distinct |
| Catalog.LowStockNotice | src/store/useStore.ts:331-337 | a notice raised by `updateStock` is a low-stock notice |
| Store.PosStore.UpdateStock | src/store/useStore.ts:309-339 | the catalogue becomes `AdjustStock` of the old one; the log gains the low-stock notice exactly when `LowStockNotice` raises one |
| Catalog.LowStockProducts | src/store/useStore.ts:586-588 | lists exactly the products whose stock is at or below their threshold |
| Catalog.AlertedIsListed | src/store/useStore.ts:586-588 | a product that just raised a low-stock alert is listed as low on stock |
| Cart.AddLine | src/store/useStore.ts:342-357 | a product already in the cart has the quantity added to its line and the length is kept; otherwise one line is appended at the end; other lines are unchanged; one line per product is preserved |
| Cart.AddTwiceMerges | src/store/useStore.ts:342-357 | adding the same product twice gives one line with the summed quantity |
| Store.PosStore.AddToCart | src/store/useStore.ts:342-357 | the live cart becomes `AddLine` of the old one |
| Cart.SetLineQuantity | src/store/useStore.ts:363-367 | only lines for the id change, and only their quantity; one line per product is preserved |
| Cart.RemoveLines | src/store/useStore.ts:371-375 | no line for the id remains; every other line is kept; nothing is added |
| Cart.RemoveLinesExact | src/store/useStore.ts:371-375 | with one line per product, exactly that line is removed and the order kept; an absent id changes nothing |
| Store.PosStore.UpdateCartItem | src/store/useStore.ts:359-369 | a quantity of zero or less does what `removeFromCart` does; otherwise only the matching line's quantity is set |
| Store.PosStore.RemoveFromCart | src/store/useStore.ts:371-375 | the live cart becomes `RemoveLines` of the old one |
| Store.PosStore.ClearCart | src/store/useStore.ts:377-379 | the live cart is empty |
| Cart.CartTotal | src/store/useStore.ts:579-584 | the sum of price times quantity over the lines; `CartTotalNonNegative` and the `CartTotal*` lemmas state its properties |
| Cart.CartTotalNonNegative | src/store/useStore.ts:579-584 | a cart whose prices and quantities are not negative has a total that is not negative |
| Cart.CartTotalAppend | src/store/useStore.ts:579-584 | the total of two carts put together is the sum of their totals |
| Cart.CartTotalReplace | src/store/useStore.ts:579-584 | replacing a line moves the total by the difference of the two line totals |
| Cart.CartTotalRemoveAt | src/store/useStore.ts:579-584 | taking a line out lowers the total by that line's total |
| Cart.CartTotalAddNew | src/store/useStore.ts:342-357 | adding a new product raises the total by its price times the quantity |
| Cart.CartTotalAddExisting | src/store/useStore.ts:342-357 | adding a product already in the cart raises the total by the price on its line times the quantity |
| Cart.CartTotalSetLineQuantity | src/store/useStore.ts:359-369 | setting a line's quantity moves the total by its price times the change |
| Cart.CartTotalRemoveLines | src/store/useStore.ts:371-375 | removing a product's line lowers the total by that line's total |
| Tabs.SaveCart | src/store/useStore.ts:530 | the active tab's items become the live cart; every other tab is unchanged; ids and labels kept |
| Tabs.FindTab | src/store/useStore.ts:550 | the first tab with the id: none exactly when no tab has it, and what it finds is a tab with that id |
| Tabs.RemoveTabs | src/store/useStore.ts:564 | the tabs without the id, in order, never more than before; `RemoveTabsDistinct` states what goes |
| Tabs.Label | src/store/useStore.ts:533 | the label "Customer " followed by the decimal tab count |
| Store.TabId | src/store/useStore.ts:532 | the id a new tab gets: "tab-" followed by the decimal clock reading |
| Tabs.FindTabDistinct | src/store/useStore.ts:550 | with distinct ids, looking up a tab's id finds that tab |
| Tabs.RemoveTabsDistinct | src/store/useStore.ts:564 | with distinct ids, removing an id takes out exactly that tab, or nothing if no tab has it; ids stay distinct |
| Tabs.AddTab | src/store/useStore.ts:527-540 | one tab more, the new id active, the live cart empty |
| Tabs.AddTabSpec | src/store/useStore.ts:527-540 | the outgoing tab keeps the live cart; other tabs are unchanged; exactly one empty tab labelled "Customer n+1" is appended and becomes active; the cart is empty; the tabs stay well formed |
| Store.PosStore.AddCartTab | src/store/useStore.ts:527-540 | the tab state becomes `AddTab` of the old one |
| Tabs.SwitchTab | src/store/useStore.ts:542-558 | the number of tabs is kept; the active id stays or becomes the target; when it stays, nothing changes |
| Tabs.SwitchTabSpec | src/store/useStore.ts:542-558 | the active id or an unknown id changes nothing; otherwise the outgoing tab gets the live cart, the target's items become the cart, and every other tab is unchanged |
| Tabs.SwitchBackRestores | src/store/useStore.ts:542-558 | switching away and straight back restores the live cart |
| Tabs.TabIsolation | src/store/useStore.ts:542-558 | whatever is done to another tab's cart, switching back brings back exactly the cart that was left |
| Store.PosStore.SwitchCartTab | src/store/useStore.ts:542-558 | the tab state becomes `SwitchTab` of the old one |
| Tabs.CloseTab | src/store/useStore.ts:560-576 | at most one tab goes, and a register with a tab keeps one |
| Tabs.CloseTabSpec | src/store/useStore.ts:560-576 | a sole tab is never removed; there is always a tab left; removing the active tab activates the first remaining one and loads its items; removing another tab keeps the active id and the cart |
| Store.PosStore.RemoveCartTab | src/store/useStore.ts:560-576 | the tab state becomes `CloseTab` of the old one |
| Checkout.NewSale | src/store/useStore.ts:386-397 | the sale's items are the cart, its total is the cart total, `synced` is the connectivity, and the cashier and time are recorded; the id is `sale-<ms>`; the payment method and M-Pesa reference are the caller's |
| Checkout.Decremented | src/store/useStore.ts:400-402 | one `updateStock` per cart line keeps the catalogue's length |
| Checkout.DecrementNotices | src/store/useStore.ts:400-402 | the low-stock notices of those calls keep the log within 50 |
| Checkout.SaleAlerts | src/store/useStore.ts:400-402 | one possible low-stock notice per cart line, in cart order |
| Checkout.PushAll | src/store/useStore.ts:400-402 | pushing notices one after another keeps the log within 50 |
| Checkout.PushAllNone | src/store/useStore.ts:400-402 | a sale in which no line raises a notice leaves the log as it was |
| Checkout.SaleAlertsSpec | src/store/useStore.ts:331-337 | with distinct ids, a line raises a notice exactly when its product's stock minus the quantity is above 0 and at most the threshold; the notice names the product and that unclamped stock; a line for an unknown product raises none |
| Checkout.DecrementNoticesPushesAlerts | src/store/useStore.ts:399-402 | with distinct ids and one line per product, the sale's log is the old log with each line's `SaleAlerts` notice pushed in cart order |
| Checkout.DecrementedStep | src/store/useStore.ts:400-402 | one more line processed leaves the same catalogue at the end |
| Checkout.DecrementNoticesStep | src/store/useStore.ts:400-402 | one more line processed leaves the same log at the end |
| Checkout.DecrementedStock | src/store/useStore.ts:399-402 | with distinct ids and one line per product, each product with a line drops by that line's quantity, clamped at 0; other products are untouched; no field but stock changes |
| Checkout.DecrementedNonNegative | src/store/useStore.ts:399-402 | no stock goes below zero, whatever is sold |
| Store.PosStore.DecrementStock | src/store/useStore.ts:399-402 | the loop leaves the catalogue `Decremented` and the log with `DecrementNotices` |
| Store.PosStore.FileSale | src/store/useStore.ts:404-422 | the sale goes first in the history, the cart empties, an unsynced sale adds one to the counter, and the payment notice is pushed |
| Checkout.PaymentNotice | src/store/useStore.ts:417-422 | the notice after a sale is a payment notice titled "Sale Complete" carrying the total and the method |
| Store.PosStore.CompleteSale | src/store/useStore.ts:382-425 | with an empty cart or no user, nothing is returned and nothing changes; otherwise the sale is returned and prepended, stock is decremented per line, the cart empties, the counter grows by one exactly when offline, and the payment notice follows any low-stock notices; no shift is required |
| Notices.Stamp | src/store/useStore.ts:429-434 | the notification carries the caller's data and the id `notif-<ms>`, is stamped with the clock reading, and is unread |
| Notices.Push | src/store/useStore.ts:435-437 | the new notification is first, the old ones follow in order, and at most 50 are kept |
| Notices.NotifyIf | src/store/useStore.ts:331-337 | no notice leaves the log alone; a notice is stamped and put first, the old entries follow in order, and at most 50 are kept |
| Notices.PushFullDropsOldest | src/store/useStore.ts:436 | on a full log, a push drops exactly the oldest notification |
| Store.PosStore.AddNotification | src/store/useStore.ts:428-438 | the log becomes the stamped notification pushed onto the old log |
| Notices.MarkRead | src/store/useStore.ts:440-446 | notifications with the id become read; the others are unchanged |
| Notices.MarkReadIdempotent | src/store/useStore.ts:440-446 | marking read twice is the same as once |
| Store.PosStore.MarkNotificationRead | src/store/useStore.ts:440-446 | the log becomes `MarkRead` of the old one |
| Store.PosStore.ClearNotifications | src/store/useStore.ts:448-450 | the log is empty |
| Suppliers.AddSupplierTo | src/store/useStore.ts:453-459 | one supplier is appended, with the id `sup-<ms>` and the caller's name, phone and goods; the others are kept in order |
| Suppliers.DeleteSupplierFrom | src/store/useStore.ts:461-463 | no supplier with the id remains; every other supplier is kept; nothing is added |
| Suppliers.DeleteSupplierFromDistinct | src/store/useStore.ts:461-463 | with distinct ids, deleting a supplier's id takes out exactly that supplier and keeps the others once each, in order; an absent id changes nothing |
| Suppliers.DeleteUndoesAdd | src/store/useStore.ts:453-463 | deleting a just-added supplier under an unused id gives the old list back |
| Store.PosStore.AddSupplier | src/store/useStore.ts:453-459 | the list becomes `AddSupplierTo` of the old one |
| Store.PosStore.DeleteSupplier | src/store/useStore.ts:461-463 | the list becomes `DeleteSupplierFrom` of the old one |
| Ledger.SalesTotal | src/store/useStore.ts:596-598 | the sum of sale totals that are not negative is not negative |
| Ledger.Unsynced | src/store/useStore.ts:486 | a sale is listed exactly when it is in the history and unsynced, and the list is no longer than the history |
| Ledger.UnsyncedCount | src/store/useStore.ts:486 | the count of unsynced sales never exceeds the number of sales |
| Ledger.MarkAllSynced | src/store/useStore.ts:488 | every sale is flagged synced and nothing else about it changes |
| Ledger.UnsyncedCountZeroIff | src/store/useStore.ts:486 | nothing is counted as unsynced exactly when every sale is synced |
| Ledger.UnsyncedCountPrepend | src/store/useStore.ts:404-408 | a new sale adds one to the unsynced count exactly when it is unsynced |
| Ledger.MarkAllSyncedLeavesNone | src/store/useStore.ts:485-490 | after reconciliation nothing is unsynced |
| Ledger.MarkAllSyncedKeepsTotal | src/store/useStore.ts:596-598 | reconciliation leaves the sales total unchanged |
| Ledger.MarkAllSyncedIdempotent | src/store/useStore.ts:488 | reconciling twice is the same as once |
| Checkout.SyncNotice | src/store/useStore.ts:492-497 | the notice after a sync is a sync notice titled "Sync Complete" carrying the count |
| Store.PosStore.SyncPendingSales | src/store/useStore.ts:485-499 | every sale is synced and otherwise unchanged, the counter is 0, and one "Sync Complete" notice with the unsynced count is pushed exactly when some sale was unsynced |
| Store.PosStore.SetOnlineStatus | src/store/useStore.ts:466-471 | the flag is set; going online with pending sales runs the sync; otherwise nothing else changes; after going online every sale is synced |
| Store.PosStore.StartShift | src/store/useStore.ts:502-512 | with no user nothing changes; otherwise a new open shift for the user replaces any open one |
| Store.PosStore.EndShift | src/store/useStore.ts:514-524 | with no open shift nothing changes; otherwise the shift is stamped with its end and put first in the history, and no shift is open |
| Scenarios.BasketSale | src/store/useStore.ts:382-425 | two colas at 70 and a juice at 150 cost 290, leave stocks of 8 and 4, and raise no low-stock notice |
| Scenarios.CheckoutWithoutShift | src/store/useStore.ts:382-425 | a signed-in clerk completes a sale with no shift open: one sale of 290, cart empty, stocks reduced, one "Sale Complete" notice |
| Scenarios.OfflineThenSync | src/store/useStore.ts:466-499 | three offline sales leave three pending; going online syncs all three with one notice counting three |
| Scenarios.TwoTabs | src/store/useStore.ts:527-558 | opening a second tab, filling it and switching back restores the first customer's cart and keeps the second's |
| Scenarios.TwoCustomers | src/store/useStore.ts:527-558 | the same run on the store: the first customer's colas come back, the juice stays in "Customer 2" |
| Scenarios.LowStockEdges | src/store/useStore.ts:309-339 | a fall to exactly the threshold raises the alert; an oversale stops at 0 and raises nothing |

## Left out

- Remote I/O is not modelled. This covers the requests that `login`,
  `addUser`, `updateUser`, `deleteUser`, `addProduct`, `fetchUsers` and
  `fetchProducts` send. It also covers the PUT, DELETE and POST calls that
  follow `updateStock`, `updateProduct`, `deleteProduct` and `completeSale`.
  Their failures are only logged.
- Some of these actions write what the server returns. Those writes are
  modelled as methods that take the response as a parameter:
  - a completed `fetchProducts` is `ReceiveProducts`;
  - a completed `addProduct` is `ReceiveNewProduct`.
- A successful `login` (src/store/useStore.ts:204) sets the server's user and
  marks the store authenticated. That write is not a method of its own.
  `SetCurrentUser(Some(u))` has the same effect on the modelled fields. The
  `users` writes of `fetchUsers` and `addUser` are covered by the `users` line
  below.
- The asynchronous order inside `updateStock` is simplified. The stock write
  happens before the network call, but the low-stock check runs after it is
  awaited, and `completeSale` does not wait. In the source the low-stock
  notices of a sale therefore arrive after its payment notice, at later
  clock readings. The model runs each call to completion: the stock write,
  then the check. `CompleteSale` puts those notices before the payment
  notice, all at the same clock reading.
- `persist` and `partialize` are localStorage serialisation done by a
  library. They persist both the sales and the pending counter, so the
  invariant relating them survives a reload; the model does not represent the
  reload.
- `toggleDarkMode` (a DOM change), `setActiveBusiness` and the
  `activeBusinessId` that `setCurrentUser` writes are not modelled. The
  business id only selects a request header for the catalogue fetch.
- `getTodaySales` depends on the local calendar day and is not modelled.
- Notification texts are kept as the values they are formatted from
  (`Message`), not as `toLocaleString` output.
- Money, quantities and stock are exact reals, not JavaScript floating-point
  numbers.
- Store.PosStore.AddCartTab: requires that the clock reading gives an id no
  tab has yet. By `StampedIdInjective`, different readings give different
  ids, so this excludes a reading already used for a tab. It also excludes
  the reading 1, whose id is the initial tab's `tab-1`. Two tabs opened in the
  same millisecond would share an id in the source.
- Tabs.CloseTab: requires distinct tab ids, which the store invariant
  provides. With a duplicated id the source could remove every tab and then
  index an empty list.
- Catalog.AdjustStock, Checkout.Decremented and Checkout.DecrementNotices: the
  functions' own contracts state only lengths and the cap. What they do is
  stated in `AdjustStockEffect`, `AdjustStockSpec`, `DecrementedStock` and
  `DecrementNoticesPushesAlerts`, which callers invoke.
- The `users` list is not modelled. That covers the local writes that
  `addUser`, `updateUser` and `deleteUser` make to it
  (src/store/useStore.ts:227, 235-237 and 250-252) and its persistence. No
  modelled action reads the list.
- Nothing in the store keeps product ids distinct. `ReceiveProducts` accepts
  any list. `AdjustStockSpec`, `DecrementedStock`, `DecrementNoticesPushesAlerts`
  and `DeleteProductsDistinct` assume distinct ids. Without distinct ids,
  `deleteProduct` removes every product with the id, and `updateStock` gives
  each of them the first one's stock plus the change. `AdjustStockEffect` and
  `DeleteProducts` state that case too.
- The React components, the M-Pesa client and the API configuration are not
  part of this model. They are rendering, UI state, a network call and
  environment settings.

=== FILE: cart.dfy ===
/** The live cart: an ordered list of lines, one per product. These are the
    values that `addToCart`, `updateCartItem`, `removeFromCart` and
    `getCartTotal` compute over the store's `cart` field. */
module Cart {
  import opened Prelude
  import opened Entities

  predicate HasProduct(cart: seq<CartItem>, id: int)
  {
    exists i :: 0 <= i < |cart| && cart[i].product.id == id
  }

  /** No two lines of the cart are for the same product. */
  predicate UniqueLines(cart: seq<CartItem>)
  {
    forall i, j :: 0 <= i < j < |cart| ==> cart[i].product.id != cart[j].product.id
  }

  function LineTotal(item: CartItem): real
  {
    item.product.price * item.quantity
  }

  /** Sum of price times quantity over the lines (`getCartTotal`). */
  function CartTotal(cart: seq<CartItem>): real
  {
    if cart == [] then 0.0 else LineTotal(cart[0]) + CartTotal(cart[1..])
  }

  /** A cart of lines with non-negative prices and quantities never totals
      below zero. */
  lemma {:induction false} CartTotalNonNegative(cart: seq<CartItem>)
    requires forall i :: 0 <= i < |cart| ==> 0.0 <= cart[i].product.price && 0.0 <= cart[i].quantity
    ensures 0.0 <= CartTotal(cart)
    decreases |cart|
  {
    if cart != [] {
      assert 0.0 <= LineTotal(cart[0]);
      assert forall i :: 0 <= i < |cart[1..]| ==> cart[1..][i] == cart[i + 1];
      CartTotalNonNegative(cart[1..]);
    }
  }

  /** `addToCart`: a product already in the cart has `quantity` added to its
      line; otherwise a new line is appended. */
  function AddLine(cart: seq<CartItem>, product: Product, quantity: real): (r: seq<CartItem>)
    ensures |r| == if HasProduct(cart, product.id) then |cart| else |cart| + 1
    ensures HasProduct(r, product.id)
    ensures forall i :: 0 <= i < |cart| ==>
      r[i] == if cart[i].product.id == product.id then cart[i].(quantity := cart[i].quantity + quantity) else cart[i]
    ensures !HasProduct(cart, product.id) ==> r[|cart|] == CartItem(product, quantity)
    ensures UniqueLines(cart) ==> UniqueLines(r)
  {
    if HasProduct(cart, product.id) then
      var r := seq(|cart|, i requires 0 <= i < |cart| =>
        if cart[i].product.id == product.id then cart[i].(quantity := cart[i].quantity + quantity) else cart[i]);
      assert forall i :: 0 <= i < |cart| ==> r[i].product == cart[i].product;
      r
    else
      var r := cart + [CartItem(product, quantity)];
      assert r[|cart|].product.id == product.id;
      r
  }

  /** The positive-quantity branch of `updateCartItem`: every line for `id` gets `quantity`. */
  function SetLineQuantity(cart: seq<CartItem>, id: int, quantity: real): (r: seq<CartItem>)
    ensures |r| == |cart|
    ensures forall i :: 0 <= i < |cart| ==>
      r[i].product == cart[i].product &&
      r[i].quantity == if cart[i].product.id == id then quantity else cart[i].quantity
    ensures UniqueLines(cart) ==> UniqueLines(r)
  {
    seq(|cart|, i requires 0 <= i < |cart| =>
      if cart[i].product.id == id then cart[i].(quantity := quantity) else cart[i])
  }

  /** `removeFromCart`: the cart without the lines for `id`. */
  function RemoveLines(cart: seq<CartItem>, id: int): (r: seq<CartItem>)
    ensures !HasProduct(r, id)
    ensures forall i :: 0 <= i < |cart| && cart[i].product.id != id ==> cart[i] in r
    ensures forall i :: 0 <= i < |r| ==> r[i] in cart
    ensures UniqueLines(cart) ==> UniqueLines(r)
  {
    var keep := (item: CartItem) => item.product.id != id;
    FilterSpec(cart, keep);
    var r := Filter(cart, keep);
    if UniqueLines(cart) then
      RemoveLinesExact(cart, id);
      r
    else r
  }

  /** With one line per product, removing `id` takes out exactly its line and
      keeps the others in order; with no line for `id` the cart is unchanged. */
  lemma {:induction false} RemoveLinesExact(cart: seq<CartItem>, id: int)
    requires UniqueLines(cart)
    ensures !HasProduct(cart, id) ==> Filter(cart, (item: CartItem) => item.product.id != id) == cart
    ensures forall k :: 0 <= k < |cart| && cart[k].product.id == id ==>
      Filter(cart, (item: CartItem) => item.product.id != id) == cart[..k] + cart[k + 1..]
    ensures UniqueLines(Filter(cart, (item: CartItem) => item.product.id != id))
  {
    var keep := (item: CartItem) => item.product.id != id;
    if k :| 0 <= k < |cart| && cart[k].product.id == id {
      FilterDropsOne(cart, keep, k);
      var r := cart[..k] + cart[k + 1..];
      forall i, j | 0 <= i < j < |r| ensures r[i].product.id != r[j].product.id {
        var i', j' := if i < k then i else i + 1, if j < k then j else j + 1;
        assert r[i] == cart[i'] && r[j] == cart[j'];
      }
    } else {
      FilterKeepsAll(cart, keep);
    }
  }

  /** The total of a concatenation is the sum of the totals. */
  lemma {:induction false} CartTotalAppend(a: seq<CartItem>, b: seq<CartItem>)
    ensures CartTotal(a + b) == CartTotal(a) + CartTotal(b)
  {
    if a == [] {
      assert a + b == b;
    } else {
      assert (a + b)[0] == a[0];
      assert (a + b)[1..] == a[1..] + b;
      CartTotalAppend(a[1..], b);
    }
  }

  /** Replacing one line moves the total by the difference of the two line totals. */
  lemma {:induction false} CartTotalReplace(cart: seq<CartItem>, k: nat, line: CartItem)
    requires k < |cart|
    ensures CartTotal(cart[k := line]) == CartTotal(cart) - LineTotal(cart[k]) + LineTotal(line)
  {
    if k == 0 {
      assert cart[k := line][1..] == cart[1..];
    } else {
      assert cart[k := line][1..] == cart[1..][k - 1 := line];
      CartTotalReplace(cart[1..], k - 1, line);
    }
  }

  /** Taking one line out lowers the total by that line's total. */
  lemma {:induction false} CartTotalRemoveAt(cart: seq<CartItem>, k: nat)
    requires k < |cart|
    ensures CartTotal(cart[..k] + cart[k + 1..]) == CartTotal(cart) - LineTotal(cart[k])
  {
    if k == 0 {
      assert cart[..k] + cart[k + 1..] == cart[1..];
    } else {
      var r := cart[..k] + cart[k + 1..];
      assert r[0] == cart[0];
      assert r[1..] == cart[1..][..k - 1] + cart[1..][k..];
      CartTotalRemoveAt(cart[1..], k - 1);
    }
  }

  /** Adding a product the cart does not hold raises the total by the
      product's price times `quantity`. */
  lemma {:induction false} CartTotalAddNew(cart: seq<CartItem>, product: Product, quantity: real)
    requires !HasProduct(cart, product.id)
    ensures CartTotal(AddLine(cart, product, quantity)) == CartTotal(cart) + product.price * quantity
  {
    CartTotalAppend(cart, [CartItem(product, quantity)]);
    assert CartTotal([CartItem(product, quantity)]) == product.price * quantity;
  }

  /** Adding a product the cart already holds on line `k` raises the total by
      the price recorded on that line (not the price passed in) times
      `quantity`. */
  lemma {:induction false} CartTotalAddExisting(cart: seq<CartItem>, product: Product, quantity: real, k: nat)
    requires UniqueLines(cart) && k < |cart| && cart[k].product.id == product.id
    ensures CartTotal(AddLine(cart, product, quantity)) == CartTotal(cart) + cart[k].product.price * quantity
  {
    var r := AddLine(cart, product, quantity);
    var q0 := cart[k].quantity;
    var line := cart[k].(quantity := q0 + quantity);
    assert HasProduct(cart, product.id);
    forall i | 0 <= i < |cart| ensures r[i] == cart[k := line][i] {
      if i != k { assert cart[i].product.id != product.id; }
    }
    assert r == cart[k := line];
    CartTotalReplace(cart, k, line);
    Distribute(cart[k].product.price, q0, quantity);
  }

  /** Setting the quantity of a line moves the total by its price times the
      change in quantity. */
  lemma {:induction false} CartTotalSetLineQuantity(cart: seq<CartItem>, k: nat, quantity: real)
    requires UniqueLines(cart) && k < |cart|
    ensures CartTotal(SetLineQuantity(cart, cart[k].product.id, quantity))
         == CartTotal(cart) + cart[k].product.price * (quantity - cart[k].quantity)
  {
    var line := cart[k].(quantity := quantity);
    forall i | 0 <= i < |cart| ensures SetLineQuantity(cart, cart[k].product.id, quantity)[i] == cart[k := line][i] {
      if i != k { assert cart[i].product.id != cart[k].product.id; }
    }
    assert SetLineQuantity(cart, cart[k].product.id, quantity) == cart[k := line];
    CartTotalReplace(cart, k, line);
    Distribute(cart[k].product.price, cart[k].quantity, quantity - cart[k].quantity);
  }

  lemma Distribute(price: real, a: real, b: real)
    ensures price * (a + b) == price * a + price * b
  {
  }

  /** Removing the line for a product lowers the total by that line's total. */
  lemma {:induction false} CartTotalRemoveLines(cart: seq<CartItem>, k: nat)
    requires UniqueLines(cart) && k < |cart|
    ensures CartTotal(RemoveLines(cart, cart[k].product.id)) == CartTotal(cart) - LineTotal(cart[k])
  {
    RemoveLinesExact(cart, cart[k].product.id);
    CartTotalRemoveAt(cart, k);
  }

  /** Adding the same product twice gives one line holding the sum of the two
      quantities, not two lines. */
  lemma {:induction false} AddTwiceMerges(cart: seq<CartItem>, product: Product, q1: real, q2: real)
    requires !HasProduct(cart, product.id)
    ensures AddLine(AddLine(cart, product, q1), product, q2) == cart + [CartItem(product, q1 + q2)]
  {
    var once := AddLine(cart, product, q1);
    var twice := AddLine(once, product, q2);
    assert once[|cart|].product.id == product.id;
    assert |twice| == |cart| + 1;
    forall i | 0 <= i < |cart| + 1 ensures twice[i] == (cart + [CartItem(product, q1 + q2)])[i] {
      if i < |cart| {
        assert cart[i].product.id != product.id;
      }
    }
  }
}

=== FILE: catalog.dfy ===
/** The product catalogue as the store mutates it locally: stock adjustment
    clamped at zero with its low-stock alert, product edits and deletion, and
    the low-stock query. */
module Catalog {
  import opened Prelude
  import opened Entities

  predicate DistinctProductIds(products: seq<Product>)
  {
    forall i, j :: 0 <= i < j < |products| ==> products[i].id != products[j].id
  }

  predicate HasProductId(products: seq<Product>, id: int)
  {
    exists i :: 0 <= i < |products| && products[i].id == id
  }

  /** `Math.max(0, x)`. */
  function Clamp(x: real): (r: real)
    ensures r >= 0.0 && r >= x
    ensures x >= 0.0 ==> r == x
    ensures x < 0.0 ==> r == 0.0
  {
    if x < 0.0 then 0.0 else x
  }

  /** `products.find(p => p.id === id)`: the first product with this id. */
  function FindProduct(products: seq<Product>, id: int): (r: Option<Product>)
    ensures r.Some? ==> r.value.id == id
  {
    if products == [] then None
    else if products[0].id == id then Some(products[0])
    else FindProduct(products[1..], id)
  }

  /** The lookup fails exactly when no product has the id, and what it finds
      is in the catalogue. */
  lemma {:induction false} FindProductSpec(products: seq<Product>, id: int)
    ensures FindProduct(products, id).None? <==> !HasProductId(products, id)
    ensures FindProduct(products, id).Some? ==> FindProduct(products, id).value in products
  {
    if products != [] && products[0].id != id {
      FindProductSpec(products[1..], id);
      assert forall i :: 1 <= i < |products| ==> products[i] == products[1..][i - 1];
      if HasProductId(products, id) {
        var i :| 0 <= i < |products| && products[i].id == id;
        assert products[1..][i - 1].id == id;
      }
    }
  }

  /** With distinct ids, looking up the id of a product finds that product. */
  lemma {:induction false} FindProductDistinct(products: seq<Product>, k: nat)
    requires DistinctProductIds(products) && k < |products|
    ensures FindProduct(products, products[k].id) == Some(products[k])
  {
    if k > 0 {
      assert products[0].id != products[k].id;
      assert DistinctProductIds(products[1..]) by {
        forall i, j | 0 <= i < j < |products| - 1 ensures products[1..][i].id != products[1..][j].id {
          assert products[1..][i] == products[i + 1] && products[1..][j] == products[j + 1];
        }
      }
      FindProductDistinct(products[1..], k - 1);
    }
  }

  /** The local write of `updateStock`; `AdjustStockEffect` states what it
      does to each product. */
  function AdjustStock(products: seq<Product>, id: int, delta: real): (r: seq<Product>)
    ensures |r| == |products|
  {
    match FindProduct(products, id)
    case None => products
    case Some(p) =>
      seq(|products|, i requires 0 <= i < |products| =>
        if products[i].id == id then products[i].(stock := Clamp(p.stock + delta)) else products[i])
  }

  /** Every product with this id gets the stock of the first product with
      this id plus `delta`, clamped at zero, so never negative; every other
      product is untouched, and an unknown id changes nothing. */
  lemma {:induction false} AdjustStockEffect(products: seq<Product>, id: int, delta: real)
    ensures !HasProductId(products, id) ==> AdjustStock(products, id, delta) == products
    ensures forall i :: 0 <= i < |products| && products[i].id != id ==> AdjustStock(products, id, delta)[i] == products[i]
    ensures forall i :: 0 <= i < |products| && products[i].id == id ==>
      && FindProduct(products, id).Some?
      && AdjustStock(products, id, delta)[i]
         == products[i].(stock := Clamp(FindProduct(products, id).value.stock + delta))
      && AdjustStock(products, id, delta)[i].stock >= 0.0
  {
    FindProductSpec(products, id);
  }

  /** The notice `updateStock` raises after its write: only when the product
      exists and its new (unclamped) stock is above zero and at or below the
      product's threshold. */
  function LowStockNotice(products: seq<Product>, id: int, delta: real): (n: Option<NoticeData>)
    ensures n.Some? ==> n.value.kind == LowStock
  {
    match FindProduct(products, id)
    case None => None
    case Some(p) =>
      var newStock := p.stock + delta;
      if newStock <= p.lowStockThreshold && newStock > 0.0
      then Some(NoticeData(LowStock, "Low Stock Alert", RunningLow(p.name, newStock)))
      else None
  }

  /** Stock adjustment on a catalogue with distinct ids: the product keeps all
      its fields but stock, which becomes `max(0, stock + delta)`, so it stays
      non-negative; an alert is raised if and only if `0 < stock + delta <=
      threshold`, which in particular never happens when stock reaches zero. */
  lemma {:induction false} AdjustStockSpec(products: seq<Product>, k: nat, delta: real)
    requires DistinctProductIds(products) && k < |products|
    ensures var r := AdjustStock(products, products[k].id, delta);
      && r[k] == products[k].(stock := Clamp(products[k].stock + delta))
      && r[k].stock >= 0.0
      && (products[k].stock + delta <= 0.0 ==> r[k].stock == 0.0)
      && DistinctProductIds(r)
    ensures LowStockNotice(products, products[k].id, delta).Some?
        <==> 0.0 < products[k].stock + delta <= products[k].lowStockThreshold
    ensures LowStockNotice(products, products[k].id, delta).Some? ==>
      LowStockNotice(products, products[k].id, delta).value
        == NoticeData(LowStock, "Low Stock Alert", RunningLow(products[k].name, products[k].stock + delta))
  {
    FindProductDistinct(products, k);
    var r := AdjustStock(products, products[k].id, delta);
    forall i, j | 0 <= i < j < |r| ensures r[i].id != r[j].id {
      assert r[i].id == products[i].id && r[j].id == products[j].id;
    }
  }

  /** With distinct ids, adjusting one product's stock does not change what a
      lookup of any other id finds. */
  lemma {:induction false} FindProductAfterAdjust(products: seq<Product>, id: int, delta: real, other: int)
    requires DistinctProductIds(products) && other != id
    ensures FindProduct(AdjustStock(products, id, delta), other) == FindProduct(products, other)
  {
    var after := AdjustStock(products, id, delta);
    AdjustStockKeepsIds(products, id, delta);
    AdjustStockEffect(products, id, delta);
    FindProductSpec(products, other);
    FindProductSpec(after, other);
    if k :| 0 <= k < |products| && products[k].id == other {
      FindProductDistinct(products, k);
      assert after[k] == products[k];
      FindProductDistinct(after, k);
    } else {
      assert !HasProductId(after, other);
    }
  }

  /** Adjusting stock keeps every product's id, so distinct ids stay distinct. */
  lemma {:induction false} AdjustStockKeepsIds(products: seq<Product>, id: int, delta: real)
    ensures forall i :: 0 <= i < |products| ==> AdjustStock(products, id, delta)[i].id == products[i].id
    ensures DistinctProductIds(products) ==> DistinctProductIds(AdjustStock(products, id, delta))
  {
    var r := AdjustStock(products, id, delta);
    assert forall i :: 0 <= i < |products| ==> r[i].id == products[i].id;
  }

  /** `getLowStockProducts`: the products at or below their threshold. */
  function LowStockProducts(products: seq<Product>): (r: seq<Product>)
    ensures |r| <= |products|
    ensures forall i :: 0 <= i < |r| ==> r[i] in products && r[i].stock <= r[i].lowStockThreshold
    ensures forall i :: 0 <= i < |products| && products[i].stock <= products[i].lowStockThreshold ==> products[i] in r
  {
    var low := (p: Product) => p.stock <= p.lowStockThreshold;
    FilterSpec(products, low);
    Filter(products, low)
  }

  /** A product that raised a low-stock alert is listed as low on stock
      afterwards. The converse fails: an out-of-stock product is listed but
      never alerted. */
  lemma {:induction false} AlertedIsListed(products: seq<Product>, k: nat, delta: real)
    requires DistinctProductIds(products) && k < |products|
    requires LowStockNotice(products, products[k].id, delta).Some?
    ensures AdjustStock(products, products[k].id, delta)[k] in LowStockProducts(AdjustStock(products, products[k].id, delta))
  {
    AdjustStockSpec(products, k, delta);
  }

  /** `{ ...p, ...updates }`: the patch's fields win where it has them. */
  function Patched(p: Product, patch: ProductPatch): (r: Product)
    ensures r.id == (if patch.id.Some? then patch.id.value else p.id)
    ensures r.name == (if patch.name.Some? then patch.name.value else p.name)
    ensures r.category == (if patch.category.Some? then patch.category.value else p.category)
    ensures r.price == (if patch.price.Some? then patch.price.value else p.price)
    ensures r.unit == (if patch.unit.Some? then patch.unit.value else p.unit)
    ensures r.stock == (if patch.stock.Some? then patch.stock.value else p.stock)
    ensures r.barcode == (if patch.barcode.Some? then patch.barcode.value else p.barcode)
    ensures r.image == (if patch.image.Some? then patch.image.value else p.image)
    ensures r.lowStockThreshold == (if patch.lowStockThreshold.Some? then patch.lowStockThreshold.value else p.lowStockThreshold)
  {
    Product(
      if patch.id.Some? then patch.id.value else p.id,
      if patch.name.Some? then patch.name.value else p.name,
      if patch.category.Some? then patch.category.value else p.category,
      if patch.price.Some? then patch.price.value else p.price,
      if patch.unit.Some? then patch.unit.value else p.unit,
      if patch.stock.Some? then patch.stock.value else p.stock,
      if patch.barcode.Some? then patch.barcode.value else p.barcode,
      if patch.image.Some? then patch.image.value else p.image,
      if patch.lowStockThreshold.Some? then patch.lowStockThreshold.value else p.lowStockThreshold)
  }

  const EmptyPatch := ProductPatch(None, None, None, None, None, None, None, None, None)

  /** The local write of `updateProduct`: every product with this id is patched. */
  function UpdateProducts(products: seq<Product>, id: int, patch: ProductPatch): (r: seq<Product>)
    ensures |r| == |products|
    ensures forall i :: 0 <= i < |products| ==>
      r[i] == if products[i].id == id then Patched(products[i], patch) else products[i]
  {
    seq(|products|, i requires 0 <= i < |products| =>
      if products[i].id == id then Patched(products[i], patch) else products[i])
  }

  /** An update with no fields leaves the catalogue as it was. */
  lemma {:induction false} EmptyPatchChangesNothing(products: seq<Product>, id: int)
    ensures UpdateProducts(products, id, EmptyPatch) == products
  {
    var r := UpdateProducts(products, id, EmptyPatch);
    forall i | 0 <= i < |products| ensures r[i] == products[i] {
      var p := products[i];
      assert Patched(p, EmptyPatch) == Product(p.id, p.name, p.category, p.price, p.unit, p.stock, p.barcode, p.image, p.lowStockThreshold);
    }
  }

  /** The local write of `deleteProduct`. */
  function DeleteProducts(products: seq<Product>, id: int): (r: seq<Product>)
    ensures !HasProductId(r, id)
    ensures forall i :: 0 <= i < |r| ==> r[i] in products
    ensures forall i :: 0 <= i < |products| && products[i].id != id ==> products[i] in r
  {
    var keep := (p: Product) => p.id != id;
    FilterSpec(products, keep);
    Filter(products, keep)
  }

  /** With distinct ids, deleting a product takes out exactly that product and
      keeps the others in order. */
  lemma {:induction false} DeleteProductsDistinct(products: seq<Product>, k: nat)
    requires DistinctProductIds(products) && k < |products|
    ensures DeleteProducts(products, products[k].id) == products[..k] + products[k + 1..]
  {
    FilterDropsOne(products, (p: Product) => p.id != products[k].id, k);
  }
}

=== FILE: checkout.dfy ===
/** Sale finalisation as values: the sale record `completeSale` builds, the
    notices it raises, and the effect of its loop that calls `updateStock`
    once per cart line, in cart order. */
module Checkout {
  import opened Prelude
  import opened Entities
  import opened Cart
  import opened Catalog
  import opened Notices

  /** The record `completeSale` returns and prepends to the history. */
  function NewSale(lines: seq<CartItem>, cashier: User, paymentMethod: PaymentMethod,
                   mpesaRef: Option<string>, online: bool, now: nat): (s: Sale)
    ensures s.items == lines && s.total == CartTotal(lines) && s.synced == online
    ensures s.cashierId == cashier.id && s.cashierName == cashier.name && s.timestamp == now
    ensures s.id == StampedId("sale-", now) && s.paymentMethod == paymentMethod && s.mpesaRef == mpesaRef
  {
    Sale(StampedId("sale-", now), lines, CartTotal(lines), paymentMethod, mpesaRef, cashier.id, cashier.name, now, online)
  }

  function PaymentNotice(total: real, paymentMethod: PaymentMethod): (n: NoticeData)
    ensures n.kind == Payment && n.title == "Sale Complete" && n.message == PaidVia(total, paymentMethod)
  {
    NoticeData(Payment, "Sale Complete", PaidVia(total, paymentMethod))
  }

  function SyncNotice(count: nat): (n: NoticeData)
    ensures n.kind == SyncDone && n.title == "Sync Complete" && n.message == SalesSynced(count)
  {
    NoticeData(SyncDone, "Sync Complete", SalesSynced(count))
  }

  /** The catalogue after `updateStock(line.product.id, -line.quantity)` for
      each of `lines`, first to last. */
  function Decremented(products: seq<Product>, lines: seq<CartItem>): (r: seq<Product>)
    ensures |r| == |products|
    decreases |lines|
  {
    if lines == [] then products
    else Decremented(AdjustStock(products, lines[0].product.id, -lines[0].quantity), lines[1..])
  }

  /** The notification log after the same calls: each call may push one
      low-stock notice, judged against the catalogue as that call finds it. */
  function DecrementNotices(products: seq<Product>, log: seq<Notification>, lines: seq<CartItem>, now: nat): (r: seq<Notification>)
    ensures |log| <= MaxNotifications ==> |r| <= MaxNotifications
    decreases |lines|
  {
    if lines == [] then log
    else
      var id, delta := lines[0].product.id, -lines[0].quantity;
      DecrementNotices(AdjustStock(products, id, delta), NotifyIf(log, LowStockNotice(products, id, delta), now), lines[1..], now)
  }

  /** The low-stock notice each line would raise on its own, judged against
      the catalogue as it was before the sale, in cart order. */
  function SaleAlerts(products: seq<Product>, lines: seq<CartItem>): (r: seq<Option<NoticeData>>)
    ensures |r| == |lines|
  {
    seq(|lines|, j requires 0 <= j < |lines| => LowStockNotice(products, lines[j].product.id, -lines[j].quantity))
  }

  /** Stamp and push each notice there is, first to last. */
  function PushAll(log: seq<Notification>, alerts: seq<Option<NoticeData>>, now: nat): (r: seq<Notification>)
    ensures |log| <= MaxNotifications ==> |r| <= MaxNotifications
    decreases |alerts|
  {
    if alerts == [] then log else PushAll(NotifyIf(log, alerts[0], now), alerts[1..], now)
  }

  /** A sale in which no line raises an alert leaves the log as it was. */
  lemma {:induction false} PushAllNone(log: seq<Notification>, alerts: seq<Option<NoticeData>>, now: nat)
    requires forall j :: 0 <= j < |alerts| ==> alerts[j].None?
    ensures PushAll(log, alerts, now) == log
    decreases |alerts|
  {
    if alerts != [] {
      assert forall j :: 0 <= j < |alerts[1..]| ==> alerts[1..][j] == alerts[j + 1];
      PushAllNone(log, alerts[1..], now);
    }
  }

  /** Which lines raise an alert: with distinct product ids, line `j` for
      product `k` raises one exactly when `0 < stock - quantity <= threshold`,
      and it reports that product's name and that (unclamped) stock; a line
      whose product is not in the catalogue raises none. */
  lemma {:induction false} SaleAlertsSpec(products: seq<Product>, lines: seq<CartItem>)
    requires DistinctProductIds(products)
    ensures forall j, k :: 0 <= j < |lines| && 0 <= k < |products| && products[k].id == lines[j].product.id ==>
      && (SaleAlerts(products, lines)[j].Some?
          <==> 0.0 < products[k].stock - lines[j].quantity <= products[k].lowStockThreshold)
      && (SaleAlerts(products, lines)[j].Some? ==>
            SaleAlerts(products, lines)[j].value
            == NoticeData(LowStock, "Low Stock Alert", RunningLow(products[k].name, products[k].stock - lines[j].quantity)))
    ensures forall j :: 0 <= j < |lines| && !HasProductId(products, lines[j].product.id) ==> SaleAlerts(products, lines)[j].None?
  {
    var alerts := SaleAlerts(products, lines);
    forall j, k | 0 <= j < |lines| && 0 <= k < |products| && products[k].id == lines[j].product.id
      ensures && (alerts[j].Some? <==> 0.0 < products[k].stock - lines[j].quantity <= products[k].lowStockThreshold)
              && (alerts[j].Some? ==>
                    alerts[j].value
                    == NoticeData(LowStock, "Low Stock Alert", RunningLow(products[k].name, products[k].stock - lines[j].quantity)))
    {
      AdjustStockSpec(products, k, -lines[j].quantity);
    }
    forall j | 0 <= j < |lines| && !HasProductId(products, lines[j].product.id) ensures alerts[j].None? {
      FindProductSpec(products, lines[j].product.id);
    }
  }

  /** Adjusting one product's stock changes no alert of a line for another
      product. */
  lemma {:induction false} SaleAlertsAfterAdjust(products: seq<Product>, id: int, delta: real, lines: seq<CartItem>)
    requires DistinctProductIds(products)
    requires forall j :: 0 <= j < |lines| ==> lines[j].product.id != id
    ensures SaleAlerts(AdjustStock(products, id, delta), lines) == SaleAlerts(products, lines)
  {
    var after := AdjustStock(products, id, delta);
    forall j | 0 <= j < |lines| ensures SaleAlerts(after, lines)[j] == SaleAlerts(products, lines)[j] {
      FindProductAfterAdjust(products, id, delta, lines[j].product.id);
    }
  }

  /** The inductive step of the closed form, apart from the facts about
      distinct ids that make the first line's alert independent of the rest. */
  lemma {:induction false} DecrementNoticesCons(products: seq<Product>, log: seq<Notification>, lines: seq<CartItem>, now: nat,
                                                alerts: seq<Option<NoticeData>>, tail: seq<Option<NoticeData>>)
    requires lines != [] && alerts != [] && alerts[1..] == tail
    requires alerts[0] == LowStockNotice(products, lines[0].product.id, -lines[0].quantity)
    requires DecrementNotices(AdjustStock(products, lines[0].product.id, -lines[0].quantity),
                              NotifyIf(log, alerts[0], now), lines[1..], now)
          == PushAll(NotifyIf(log, alerts[0], now), tail, now)
    ensures DecrementNotices(products, log, lines, now) == PushAll(log, alerts, now)
  {
  }

  /** The first line's alert, then the alerts of the rest. */
  lemma {:induction false} SaleAlertsSplit(products: seq<Product>, lines: seq<CartItem>)
    requires lines != []
    ensures SaleAlerts(products, lines) != []
    ensures SaleAlerts(products, lines)[0] == LowStockNotice(products, lines[0].product.id, -lines[0].quantity)
    ensures SaleAlerts(products, lines)[1..] == SaleAlerts(products, lines[1..])
  {
    var alerts, rest := SaleAlerts(products, lines), SaleAlerts(products, lines[1..]);
    forall j | 0 <= j < |rest| ensures alerts[1..][j] == rest[j] {
      assert lines[1..][j] == lines[j + 1];
    }
  }

  /** The lines after the first are unique too, and none is for the first
      line's product. */
  lemma {:induction false} UniqueLinesTail(lines: seq<CartItem>)
    requires UniqueLines(lines) && lines != []
    ensures UniqueLines(lines[1..])
    ensures forall j :: 0 <= j < |lines[1..]| ==> lines[1..][j].product.id != lines[0].product.id
  {
    forall j | 0 <= j < |lines[1..]| ensures lines[1..][j] == lines[j + 1] { }
  }

  /** Taking the first line off the stock keeps ids distinct, and leaves the
      other lines, still one per product, with the alerts they had. */
  lemma {:induction false} FirstLineIndependent(products: seq<Product>, lines: seq<CartItem>)
    requires DistinctProductIds(products) && UniqueLines(lines) && lines != []
    ensures DistinctProductIds(AdjustStock(products, lines[0].product.id, -lines[0].quantity))
    ensures UniqueLines(lines[1..])
    ensures SaleAlerts(products, lines) != []
    ensures SaleAlerts(products, lines)[0] == LowStockNotice(products, lines[0].product.id, -lines[0].quantity)
    ensures SaleAlerts(products, lines)[1..]
         == SaleAlerts(AdjustStock(products, lines[0].product.id, -lines[0].quantity), lines[1..])
  {
    var id, delta := lines[0].product.id, -lines[0].quantity;
    AdjustStockKeepsIds(products, id, delta);
    UniqueLinesTail(lines);
    SaleAlertsAfterAdjust(products, id, delta, lines[1..]);
    SaleAlertsSplit(products, lines);
  }

  /** The log after a sale's stock loop, in closed form: with distinct product
      ids and one line per product, no line's notice depends on the lines
      before it, so the loop pushes each line's `SaleAlerts` notice in cart
      order onto the log it started from. */
  lemma {:induction false} DecrementNoticesPushesAlerts(products: seq<Product>, log: seq<Notification>, lines: seq<CartItem>, now: nat)
    requires DistinctProductIds(products) && UniqueLines(lines)
    ensures DecrementNotices(products, log, lines, now) == PushAll(log, SaleAlerts(products, lines), now)
    decreases |lines|
  {
    if lines != [] {
      var id, delta := lines[0].product.id, -lines[0].quantity;
      var rest := lines[1..];
      var after := AdjustStock(products, id, delta);
      var alerts := SaleAlerts(products, lines);
      FirstLineIndependent(products, lines);
      DecrementNoticesPushesAlerts(after, NotifyIf(log, alerts[0], now), rest, now);
      DecrementNoticesCons(products, log, lines, now, alerts, SaleAlerts(after, rest));
    }
  }

  /** Line `i` is one more `updateStock` call: if what is left to do from
      `before` ends in `goal`, then what is left from the catalogue that call
      leaves ends there too. */
  lemma {:induction false} DecrementedStep(lines: seq<CartItem>, i: nat, before: seq<Product>, goal: seq<Product>)
    requires i < |lines|
    requires Decremented(before, lines[i..]) == goal
    ensures Decremented(AdjustStock(before, lines[i].product.id, -lines[i].quantity), lines[i + 1..]) == goal
  {
    var rest := lines[i..];
    assert rest != [] && rest[0] == lines[i] && rest[1..] == lines[i + 1..];
  }

  /** The same for the log: the call pushes the notice it raises, judged
      against the catalogue it finds. */
  lemma {:induction false} DecrementNoticesStep(lines: seq<CartItem>, i: nat, now: nat, before: seq<Product>,
                                                seen: seq<Notification>, goalLog: seq<Notification>)
    requires i < |lines|
    requires DecrementNotices(before, seen, lines[i..], now) == goalLog
    ensures DecrementNotices(AdjustStock(before, lines[i].product.id, -lines[i].quantity),
                             NotifyIf(seen, LowStockNotice(before, lines[i].product.id, -lines[i].quantity), now),
                             lines[i + 1..], now) == goalLog
  {
    var rest := lines[i..];
    assert rest != [] && rest[0] == lines[i] && rest[1..] == lines[i + 1..];
    assert DecrementNotices(before, seen, rest, now)
        == DecrementNotices(AdjustStock(before, rest[0].product.id, -rest[0].quantity),
                            NotifyIf(seen, LowStockNotice(before, rest[0].product.id, -rest[0].quantity), now),
                            rest[1..], now);
  }

  /** Stock after a sale, for a catalogue with distinct ids and a cart with one
      line per product: a product with a line drops by that line's quantity,
      clamped at zero; a product without one is untouched; no other field of
      any product changes. */
  lemma {:induction false} DecrementedStock(products: seq<Product>, lines: seq<CartItem>, k: nat)
    requires DistinctProductIds(products) && UniqueLines(lines) && k < |products|
    ensures Decremented(products, lines)[k] == products[k].(stock := Decremented(products, lines)[k].stock)
    ensures !HasProduct(lines, products[k].id) ==> Decremented(products, lines)[k] == products[k]
    ensures forall j :: 0 <= j < |lines| && lines[j].product.id == products[k].id ==>
      Decremented(products, lines)[k].stock == Clamp(products[k].stock - lines[j].quantity)
    decreases |lines|
  {
    if lines != [] {
      var id, first, rest := products[k].id, lines[0], lines[1..];
      var after := AdjustStock(products, first.product.id, -first.quantity);
      var r := Decremented(after, rest);
      assert Decremented(products, lines) == r;
      AdjustStockKeepsIds(products, first.product.id, -first.quantity);
      assert after[k].id == id;
      assert UniqueLines(rest);
      DecrementedStock(after, rest, k);
      if first.product.id == id {
        AdjustStockSpec(products, k, -first.quantity);
        assert !HasProduct(rest, id) by {
          forall j | 0 <= j < |rest| ensures rest[j].product.id != id {
            assert rest[j] == lines[j + 1];
          }
        }
        assert r[k] == after[k];
        forall j | 0 <= j < |lines| && lines[j].product.id == id
          ensures r[k].stock == Clamp(products[k].stock - lines[j].quantity)
        {
          assert j == 0;
        }
      } else {
        AdjustStockEffect(products, first.product.id, -first.quantity);
        assert after[k] == products[k];
        forall j | 0 <= j < |lines| && lines[j].product.id == id
          ensures r[k].stock == Clamp(products[k].stock - lines[j].quantity)
        {
          assert j > 0 && rest[j - 1] == lines[j];
        }
        assert HasProduct(lines, id) ==> HasProduct(rest, id) by {
          if HasProduct(lines, id) {
            var j :| 0 <= j < |lines| && lines[j].product.id == id;
            assert j > 0 && rest[j - 1] == lines[j];
          }
        }
      }
    }
  }

  /** No stock drops below zero: a catalogue with non-negative stock keeps it
      through a whole sale, whatever quantities are sold. */
  lemma {:induction false} DecrementedNonNegative(products: seq<Product>, lines: seq<CartItem>)
    requires forall i :: 0 <= i < |products| ==> products[i].stock >= 0.0
    ensures forall i :: 0 <= i < |products| ==> Decremented(products, lines)[i].stock >= 0.0
    decreases |lines|
  {
    if lines != [] {
      var after := AdjustStock(products, lines[0].product.id, -lines[0].quantity);
      AdjustStockEffect(products, lines[0].product.id, -lines[0].quantity);
      assert forall i :: 0 <= i < |after| ==> after[i].stock >= 0.0;
      DecrementedNonNegative(after, lines[1..]);
    }
  }
}

=== FILE: entities.dfy ===
/** The records the store holds: the catalogue's products, the signed-in
    user, cart lines, cart tabs, sales, notifications, shifts and suppliers.
    Prices, quantities, stock levels and totals are exact `real`s; every
    timestamp is a clock reading in milliseconds, passed in by the caller. */
module Entities {
  import opened Prelude

  datatype StockUnit = Pcs | Kg | G | Bottles | Sachets | Trays | Liters

  datatype Product = Product(
    id: int,
    name: string,
    category: string,
    price: real,
    unit: StockUnit,
    stock: real,
    barcode: string,
    image: string,
    lowStockThreshold: real)

  /** `Partial<Product>`: the fields an update overwrites; `None` leaves a field as it is. */
  datatype ProductPatch = ProductPatch(
    id: Option<int>,
    name: Option<string>,
    category: Option<string>,
    price: Option<real>,
    unit: Option<StockUnit>,
    stock: Option<real>,
    barcode: Option<string>,
    image: Option<string>,
    lowStockThreshold: Option<real>)

  datatype Role = Admin | Owner | Cashier | Developer

  datatype User = User(id: string, name: string, pin: string, role: Role, avatar: string, active: bool)

  datatype CartItem = CartItem(product: Product, quantity: real)

  /** A customer tab; `caption` is the label shown on it (`label` is a Dafny keyword). */
  datatype CartTab = CartTab(id: string, caption: string, items: seq<CartItem>)

  datatype PaymentMethod = Mpesa | Cash

  datatype Sale = Sale(
    id: string,
    items: seq<CartItem>,
    total: real,
    paymentMethod: PaymentMethod,
    mpesaRef: Option<string>,
    cashierId: string,
    cashierName: string,
    timestamp: nat,
    synced: bool)

  datatype NoticeKind = LowStock | Payment | SyncDone | Info

  /** A notification's text, kept as the values it is formatted from. */
  datatype Message =
    | RunningLow(productName: string, left: real)
    | PaidVia(amount: real, via: PaymentMethod)
    | SalesSynced(count: nat)
    | Text(text: string)

  datatype Notification = Notification(
    id: string,
    kind: NoticeKind,
    title: string,
    message: Message,
    read: bool,
    timestamp: nat)

  /** What a caller of `addNotification` supplies: the store adds id, timestamp and `read`. */
  datatype NoticeData = NoticeData(kind: NoticeKind, title: string, message: Message)

  datatype Shift = Shift(id: string, cashierId: string, cashierName: string, startTime: nat, endTime: Option<nat>)

  datatype Supplier = Supplier(id: string, name: string, phone: string, goods: seq<string>)

  /** An id built the way the store builds them, as a prefix followed by the clock reading. */
  function StampedId(prefix: string, now: nat): (id: string)
    ensures |id| > |prefix| && id[..|prefix|] == prefix
    ensures id[|prefix|..] == Decimal(now)
  {
    prefix + Decimal(now)
  }

  /** Ids stamped with the same prefix at different clock readings differ. */
  lemma {:induction false} StampedIdInjective(prefix: string, m: nat, n: nat)
    ensures StampedId(prefix, m) == StampedId(prefix, n) ==> m == n
  {
    if StampedId(prefix, m) == StampedId(prefix, n) {
      DecimalInjective(m, n);
    }
  }
}

=== FILE: ledger.dfy ===
/** Sales history and its reconciliation with the server: the sum used by the
    reports (`getSalesTotal`), the unsynced sales `syncPendingSales` counts,
    and the flag flip it applies to every sale. */
module Ledger {
  import opened Prelude
  import opened Entities

  /** `sales.reduce((total, sale) => total + sale.total, 0)`. */
  function SalesTotal(sales: seq<Sale>): (total: real)
    ensures (forall i :: 0 <= i < |sales| ==> 0.0 <= sales[i].total) ==> 0.0 <= total
  {
    if sales == [] then 0.0 else sales[0].total + SalesTotal(sales[1..])
  }

  /** `sales.filter(s => !s.synced)`. */
  function Unsynced(sales: seq<Sale>): (r: seq<Sale>)
    ensures |r| <= |sales|
    ensures forall i :: 0 <= i < |r| ==> r[i] in sales && !r[i].synced
    ensures forall i :: 0 <= i < |sales| && !sales[i].synced ==> sales[i] in r
  {
    FilterSpec(sales, (s: Sale) => !s.synced);
    Filter(sales, (s: Sale) => !s.synced)
  }

  /** How many sales wait for the server (the `pendingSyncs` figure). */
  function UnsyncedCount(sales: seq<Sale>): (count: nat)
    ensures count <= |sales|
  {
    |Unsynced(sales)|
  }

  /** `sales.map(s => ({ ...s, synced: true }))`. */
  function MarkAllSynced(sales: seq<Sale>): (r: seq<Sale>)
    ensures |r| == |sales|
    ensures forall i :: 0 <= i < |sales| ==> r[i] == sales[i].(synced := true)
  {
    seq(|sales|, i requires 0 <= i < |sales| => sales[i].(synced := true))
  }

  /** There is nothing to count exactly when every sale is synced. */
  lemma {:induction false} UnsyncedCountZeroIff(sales: seq<Sale>)
    ensures UnsyncedCount(sales) == 0 <==> forall i :: 0 <= i < |sales| ==> sales[i].synced
  {
    var u := Unsynced(sales);
    FilterSpec(sales, (s: Sale) => !s.synced);
    if UnsyncedCount(sales) == 0 {
      assert u == [];
    } else {
      assert u[0] in sales && !u[0].synced;
    }
  }

  /** A new sale at the head of the history adds one to the count exactly when
      it is unsynced. */
  lemma {:induction false} UnsyncedCountPrepend(sale: Sale, sales: seq<Sale>)
    ensures UnsyncedCount([sale] + sales) == (if sale.synced then 0 else 1) + UnsyncedCount(sales)
  {
    assert ([sale] + sales)[0] == sale;
    assert ([sale] + sales)[1..] == sales;
  }

  /** After the reconciliation nothing is left unsynced. */
  lemma {:induction false} MarkAllSyncedLeavesNone(sales: seq<Sale>)
    ensures UnsyncedCount(MarkAllSynced(sales)) == 0
  {
    UnsyncedCountZeroIff(MarkAllSynced(sales));
  }

  /** The reconciliation changes no amount: the sales total is the same before
      and after. */
  lemma {:induction false} MarkAllSyncedKeepsTotal(sales: seq<Sale>)
    ensures SalesTotal(MarkAllSynced(sales)) == SalesTotal(sales)
  {
    if sales != [] {
      assert MarkAllSynced(sales)[1..] == MarkAllSynced(sales[1..]);
      MarkAllSyncedKeepsTotal(sales[1..]);
    }
  }

  /** Reconciling twice is the same as reconciling once. */
  lemma {:induction false} MarkAllSyncedIdempotent(sales: seq<Sale>)
    ensures MarkAllSynced(MarkAllSynced(sales)) == MarkAllSynced(sales)
  {
  }
}

=== FILE: notices.dfy ===
/** The notification log: newest first, at most fifty entries kept. */
module Notices {
  import opened Prelude
  import opened Entities

  const MaxNotifications: nat := 50

  /** `addNotification` completes the caller's data with an id and timestamp
      taken from the clock, and marks it unread. */
  function Stamp(data: NoticeData, now: nat): (n: Notification)
    ensures n.id == StampedId("notif-", now) && !n.read && n.timestamp == now
    ensures n.kind == data.kind && n.title == data.title && n.message == data.message
  {
    Notification(StampedId("notif-", now), data.kind, data.title, data.message, false, now)
  }

  /** `[notification, ...notifications].slice(0, 50)`. */
  function Push(log: seq<Notification>, n: Notification): (r: seq<Notification>)
    ensures |r| == if |log| < MaxNotifications then |log| + 1 else MaxNotifications
    ensures r[0] == n
    ensures forall i :: 1 <= i < |r| ==> r[i] == log[i - 1]
  {
    var all := [n] + log;
    if |all| <= MaxNotifications then all else all[..MaxNotifications]
  }

  /** Push the stamped notification when there is one, leave the log alone otherwise. */
  function NotifyIf(log: seq<Notification>, data: Option<NoticeData>, now: nat): (r: seq<Notification>)
    ensures data.None? ==> r == log
    ensures data.Some? ==> |r| >= 1 && r[0] == Stamp(data.value, now)
    ensures data.Some? ==> |r| == if |log| < MaxNotifications then |log| + 1 else MaxNotifications
    ensures data.Some? ==> forall i :: 1 <= i < |r| ==> r[i] == log[i - 1]
    ensures |log| <= MaxNotifications ==> |r| <= MaxNotifications
  {
    match data
    case None => log
    case Some(d) => Push(log, Stamp(d, now))
  }

  /** `markNotificationRead`: every notification with this id becomes read. */
  function MarkRead(log: seq<Notification>, id: string): (r: seq<Notification>)
    ensures |r| == |log|
    ensures forall i :: 0 <= i < |log| && log[i].id == id ==> r[i] == log[i].(read := true)
    ensures forall i :: 0 <= i < |log| && log[i].id != id ==> r[i] == log[i]
  {
    seq(|log|, i requires 0 <= i < |log| => if log[i].id == id then log[i].(read := true) else log[i])
  }

  /** Once the log is full, a new notification pushes out exactly the oldest one. */
  lemma {:induction false} PushFullDropsOldest(log: seq<Notification>, n: Notification)
    requires |log| == MaxNotifications
    ensures Push(log, n) == [n] + log[..MaxNotifications - 1]
  {
    var r := Push(log, n);
    forall i | 0 <= i < |r| ensures r[i] == ([n] + log[..MaxNotifications - 1])[i] {
      if i > 0 { assert r[i] == log[i - 1]; }
    }
  }

  /** Marking a notification read twice is the same as marking it once. */
  lemma {:induction false} MarkReadIdempotent(log: seq<Notification>, id: string)
    ensures MarkRead(MarkRead(log, id), id) == MarkRead(log, id)
  {
    var once := MarkRead(log, id);
    forall i | 0 <= i < |log| ensures MarkRead(once, id)[i] == once[i] {
      assert once[i].id == log[i].id;
    }
  }
}

=== FILE: prelude.dfy ===
/** Small building blocks shared by the whole model: an Option type, the
    `find` and `filter` operations of JavaScript arrays, and the decimal
    rendering of a natural number that the store uses to build ids and
    labels such as `tab-<ms>` and `Customer <n>`. */
module Prelude {

  datatype Option<+T> = None | Some(value: T)

  /** The first element of `s` that satisfies `p` (Array.prototype.find). */
  function Find<T>(s: seq<T>, p: T -> bool): (r: Option<T>)
    ensures r.None? <==> forall i :: 0 <= i < |s| ==> !p(s[i])
    ensures r.Some? ==> r.value in s && p(r.value)
  {
    if s == [] then None
    else if p(s[0]) then Some(s[0])
    else
      var r := Find(s[1..], p);
      assert forall i :: 1 <= i < |s| ==> s[i] == s[1..][i - 1];
      r
  }

  /** If `s[k]` is the first element that satisfies `p`, `Find` returns it. */
  lemma {:induction false} FindFirst<T>(s: seq<T>, p: T -> bool, k: nat)
    requires k < |s| && p(s[k])
    requires forall j :: 0 <= j < k ==> !p(s[j])
    ensures Find(s, p) == Some(s[k])
  {
    if k > 0 {
      assert !p(s[0]);
      FindFirst(s[1..], p, k - 1);
    }
  }

  /** The elements of `s` that satisfy `keep`, in order (Array.prototype.filter). */
  function Filter<T>(s: seq<T>, keep: T -> bool): (r: seq<T>)
    ensures |r| <= |s|
  {
    if s == [] then [] else (if keep(s[0]) then [s[0]] else []) + Filter(s[1..], keep)
  }

  /** Filtering keeps exactly the elements that satisfy `keep`. */
  lemma {:induction false} FilterSpec<T>(s: seq<T>, keep: T -> bool)
    ensures forall i :: 0 <= i < |Filter(s, keep)| ==> Filter(s, keep)[i] in s && keep(Filter(s, keep)[i])
    ensures forall i :: 0 <= i < |s| && keep(s[i]) ==> s[i] in Filter(s, keep)
  {
    if s != [] {
      FilterSpec(s[1..], keep);
      assert forall i :: 1 <= i < |s| ==> s[i] == s[1..][i - 1];
    }
  }

  /** Filtering keeps everything when every element passes. */
  lemma {:induction false} FilterKeepsAll<T>(s: seq<T>, keep: T -> bool)
    requires forall i :: 0 <= i < |s| ==> keep(s[i])
    ensures Filter(s, keep) == s
  {
    if s != [] {
      FilterKeepsAll(s[1..], keep);
      assert [s[0]] + s[1..] == s;
    }
  }

  /** Filtering drops exactly the one element that fails, and keeps the others in order. */
  lemma {:induction false} FilterDropsOne<T>(s: seq<T>, keep: T -> bool, k: nat)
    requires k < |s| && !keep(s[k])
    requires forall i :: 0 <= i < |s| && i != k ==> keep(s[i])
    ensures Filter(s, keep) == s[..k] + s[k + 1..]
  {
    if k == 0 {
      FilterKeepsAll(s[1..], keep);
    } else {
      FilterDropsOne(s[1..], keep, k - 1);
      assert s[1..][..k - 1] == s[1..k];
      assert s[1..][k..] == s[k + 1..];
      assert [s[0]] + s[1..k] == s[..k];
    }
  }

  function Digit(d: nat): (c: char)
    requires d < 10
    ensures '0' <= c <= '9'
  {
    ('0' as int + d) as char
  }

  /** The decimal digits of `n`, most significant first, without leading zeros. */
  function Decimal(n: nat): (r: string)
    ensures 1 <= |r|
    ensures forall i :: 0 <= i < |r| ==> '0' <= r[i] <= '9'
  {
    if n < 10 then [Digit(n)] else Decimal(n / 10) + [Digit(n % 10)]
  }

  /** Different numbers have different decimal forms. */
  lemma {:induction false} DecimalInjective(m: nat, n: nat)
    ensures Decimal(m) == Decimal(n) ==> m == n
    decreases m + n
  {
    if Decimal(m) == Decimal(n) {
      if m < 10 && n < 10 {
        assert Digit(m) == Decimal(m)[0] == Decimal(n)[0] == Digit(n);
      } else if 10 <= m && 10 <= n {
        var dm, dn := Decimal(m), Decimal(n);
        assert Digit(m % 10) == dm[|dm| - 1] == dn[|dn| - 1] == Digit(n % 10);
        assert Decimal(m / 10) == dm[..|dm| - 1] == dn[..|dn| - 1] == Decimal(n / 10);
        DecimalInjective(m / 10, n / 10);
      }
    }
  }
}

=== FILE: scenarios.dfy ===
/** Short sequences of actions on the store from its initial state, each
    ending in a state stated outright. The catalogue arrives through `ReceiveProducts`, the
    write a completed `fetchProducts` makes. */
module Scenarios {
  import opened Prelude
  import opened Entities
  import opened Cart
  import opened Tabs
  import opened Catalog
  import opened Checkout
  import opened Store

  const Clerk := User("cashier-001", "Amina Wanjiru", "1234", Cashier, "", true)
  const Cola := Product(6, "Coca-Cola 500ml", "Beverages", 70.0, Bottles, 10.0, "100006", "", 3.0)
  const Juice := Product(10, "Minute Maid Mango 1L", "Beverages", 150.0, Bottles, 5.0, "100010", "", 2.0)

  /** A store that has started up with the given connectivity, signed the
      clerk in and received its catalogue. */
  method OpenStore(online: bool, shelf: seq<Product>) returns (store: PosStore)
    ensures fresh(store) && store.Valid()
    ensures store.currentUser == Some(Clerk) && store.isOnline == online && !store.isShiftActive
    ensures store.products == shelf && store.cart == []
    ensures store.sales == [] && store.notifications == [] && store.pendingSyncs == 0
  {
    store := new PosStore(online);
    store.SetCurrentUser(Some(Clerk));
    store.ReceiveProducts(shelf);
  }

  /** The first product rung up into an empty cart makes its only line. */
  lemma {:induction false} FirstLine(product: Product, quantity: real)
    ensures AddLine([], product, quantity) == [CartItem(product, quantity)]
  {
    assert !HasProduct([], product.id);
  }

  /** The two cart lines of the checkout below. */
  const Basket := [CartItem(Cola, 2.0), CartItem(Juice, 1.0)]

  /** Ringing up two colas and then one juice gives the basket. */
  lemma {:induction false} BasketRungUp()
    ensures AddLine(AddLine([], Cola, 2.0), Juice, 1.0) == Basket
  {
    FirstLine(Cola, 2.0);
    var once := [CartItem(Cola, 2.0)];
    assert !HasProduct(once, Juice.id) by {
      assert forall i :: 0 <= i < |once| ==> once[i].product.id == Cola.id;
    }
    assert AddLine(once, Juice, 1.0) == once + [CartItem(Juice, 1.0)];
  }

  /** The online store of the checkout below, with the basket in its cart. */
  method OpenTill() returns (store: PosStore)
    ensures fresh(store) && store.Valid()
    ensures store.currentUser == Some(Clerk) && store.isOnline && !store.isShiftActive
    ensures store.products == [Cola, Juice] && store.cart == Basket
    ensures store.sales == [] && store.notifications == [] && store.pendingSyncs == 0
  {
    store := OpenStore(true, [Cola, Juice]);
    store.AddToCart(Cola, 2.0);
    store.AddToCart(Juice, 1.0);
    BasketRungUp();
  }

  /** What selling the basket does to the catalogue, worked out as values: it
      costs 290, the colas drop from 10 to 8 and the juices from 5 to 4, and
      no product falls to its threshold, so no notice is raised. */
  lemma {:induction false} BasketSale()
    ensures CartTotal(Basket) == 290.0
    ensures Decremented([Cola, Juice], Basket) == [Cola.(stock := 8.0), Juice.(stock := 4.0)]
    ensures DecrementNotices([Cola, Juice], [], Basket, 1000) == []
  {
    var catalogue := [Cola, Juice];
    assert Basket[1..] == [CartItem(Juice, 1.0)] && Basket[1..][1..] == [];
    assert CartTotal(Basket[1..]) == 150.0 + CartTotal([]);
    assert UniqueLines(Basket);
    DecrementedStock(catalogue, Basket, 0);
    DecrementedStock(catalogue, Basket, 1);
    assert Basket[0].product.id == catalogue[0].id && Basket[1].product.id == catalogue[1].id;
    var after := AdjustStock(catalogue, Cola.id, -2.0);
    AdjustStockSpec(catalogue, 0, -2.0);
    AdjustStockEffect(catalogue, Cola.id, -2.0);
    assert after[1] == Juice;
    AdjustStockSpec(after, 1, -1.0);
    assert DecrementNotices(catalogue, [], Basket, 1000) == DecrementNotices(after, [], Basket[1..], 1000);
    assert DecrementNotices(after, [], Basket[1..], 1000) == DecrementNotices(AdjustStock(after, Juice.id, -1.0), [], [], 1000);
  }

  /** A cash sale of the basket, rung up while no shift is open: the store
      records it for 290, takes both lines off the stock, empties the cart and
      pushes only the payment notice. */
  method CheckoutWithoutShift() returns (store: PosStore, sale: Option<Sale>)
    ensures !store.isShiftActive
    ensures sale.Some? && sale.value.total == 290.0 && sale.value.items == Basket
    ensures store.sales == [sale.value] && store.cart == [] && store.pendingSyncs == 0
    ensures store.products == [Cola.(stock := 8.0), Juice.(stock := 4.0)]
    ensures |store.notifications| == 1 && store.notifications[0].title == "Sale Complete"
  {
    store := OpenTill();
    sale := store.CompleteSale(Cash, None, 1000);
    BasketSale();
  }

  /** One sale of a single cola by whoever is signed in. */
  method SellOneCola(store: PosStore, now: nat)
    requires store.Valid() && store.currentUser.Some?
    modifies store`products, store`notifications, store`sales, store`cart, store`pendingSyncs
    ensures store.Valid()
    ensures |store.sales| == |old(store.sales)| + 1
    ensures store.pendingSyncs == old(store.pendingSyncs) + (if store.isOnline then 0 else 1)
  {
    store.AddToCart(Cola, 1.0);
    var sale := store.CompleteSale(Cash, None, now);
  }

  /** Three sales rung up offline wait in the pending counter; going back
      online reconciles all three and says so in one notification. */
  method OfflineThenSync() returns (store: PosStore)
    ensures store.isOnline && store.pendingSyncs == 0 && |store.sales| == 3
    ensures forall i :: 0 <= i < |store.sales| ==> store.sales[i].synced
    ensures |store.notifications| >= 1 && store.notifications[0].message == SalesSynced(3)
  {
    store := OpenStore(false, [Cola]);
    SellOneCola(store, 2001);
    SellOneCola(store, 2002);
    SellOneCola(store, 2003);
    store.SetOnlineStatus(true, 3000);
  }

  /** The tabs of a fresh store, with two colas in the live cart. */
  const FirstCustomer := Register([CartTab("tab-1", "Customer 1", [])], "tab-1", [CartItem(Cola, 2.0)])

  /** Opening a second tab at clock reading 5000, ringing up a juice there and
      switching back to the first tab, as values: the first customer's colas
      come back and the juice stays with "Customer 2". */
  lemma {:induction false} TwoTabs()
    ensures !HasTab(FirstCustomer.tabs, TabId(5000))
    ensures AddTab(FirstCustomer, TabId(5000)).cart == []
    ensures SwitchTab(AddTab(FirstCustomer, TabId(5000)).(cart := [CartItem(Juice, 1.0)]), "tab-1")
      == Register([CartTab("tab-1", "Customer 1", [CartItem(Cola, 2.0)]),
                   CartTab(TabId(5000), "Customer 2", [CartItem(Juice, 1.0)])],
                  "tab-1", [CartItem(Cola, 2.0)])
  {
    var id := TabId(5000);
    assert |id| > |"tab-1"| by {
      assert Decimal(5000) == Decimal(500) + [Digit(0)];
    }
    assert !HasTab(FirstCustomer.tabs, id) by {
      assert FirstCustomer.tabs[0].id != id;
    }
    assert Label(2) == "Customer 2";
    var saved := [CartTab("tab-1", "Customer 1", [CartItem(Cola, 2.0)])];
    assert SaveCart(FirstCustomer.tabs, "tab-1", [CartItem(Cola, 2.0)]) == saved;
    var withSecond := Register(saved + [CartTab(id, "Customer 2", [])], id, []);
    assert AddTab(FirstCustomer, id) == withSecond;
    var tabs := [CartTab("tab-1", "Customer 1", [CartItem(Cola, 2.0)]), CartTab(id, "Customer 2", [CartItem(Juice, 1.0)])];
    assert SaveCart(withSecond.tabs, id, [CartItem(Juice, 1.0)]) == tabs;
    FindFirst(tabs, (t: CartTab) => t.id == "tab-1", 0);
  }

  /** Two customers served side by side: the first customer's colas survive a
      second tab being opened, filled with a juice, and left again. */
  method TwoCustomers() returns (store: PosStore)
    ensures store.activeTabId == "tab-1" && store.cart == [CartItem(Cola, 2.0)]
    ensures store.cartTabs == [CartTab("tab-1", "Customer 1", [CartItem(Cola, 2.0)]),
                               CartTab(TabId(5000), "Customer 2", [CartItem(Juice, 1.0)])]
  {
    store := new PosStore(true);
    store.AddToCart(Cola, 2.0);
    FirstLine(Cola, 2.0);
    TwoTabs();
    store.AddCartTab(5000);
    store.AddToCart(Juice, 1.0);
    FirstLine(Juice, 1.0);
    store.SwitchCartTab("tab-1");
  }

  /** Stock at the edges of the alert: a cola that falls from 4 to its
      threshold of 3 raises the alert; a juice oversold from 1 by 6 stops at 0
      and raises nothing. */
  method LowStockEdges() returns (store: PosStore)
    ensures store.products == [Cola.(stock := 3.0), Juice.(stock := 0.0)]
    ensures |store.notifications| == 1
    ensures store.notifications[0].kind == LowStock && store.notifications[0].message == RunningLow(Cola.name, 3.0)
  {
    var catalogue := [Cola.(stock := 4.0), Juice.(stock := 1.0)];
    store := OpenStore(true, catalogue);
    store.UpdateStock(Cola.id, -1.0, 100);
    AdjustStockSpec(catalogue, 0, -1.0);
    AdjustStockEffect(catalogue, Cola.id, -1.0);
    var after := store.products;
    assert after[1] == catalogue[1];
    store.UpdateStock(Juice.id, -6.0, 101);
    AdjustStockSpec(after, 1, -6.0);
    AdjustStockEffect(after, Juice.id, -6.0);
  }
}

=== FILE: store.dfy ===
/** The point-of-sale store (`useStore`): one object whose fields are the
    client-held state and whose methods are the store's actions. Each action
    changes only the fields named in its `modifies` clause. The PUT, DELETE
    and POST calls that follow a local write are fire-and-forget and do not
    appear. The catalogue writes of a completed `fetchProducts` and
    `addProduct` are `ReceiveProducts` and `ReceiveNewProduct`, with the
    server's response as a parameter; the user write of a successful `login`
    is what `SetCurrentUser` does. Every clock reading the store takes is the
    `now` argument. */
module Store {
  import opened Prelude
  import opened Entities
  import opened Cart
  import opened Tabs
  import opened Catalog
  import opened Notices
  import opened Ledger
  import opened Checkout
  import opened Suppliers

  /** The id `addCartTab` gives a new tab. */
  function TabId(now: nat): (id: string)
    ensures |id| > 4 && id[..4] == "tab-" && id[4..] == Decimal(now)
  {
    StampedId("tab-", now)
  }

  class PosStore {
    // Auth
    var currentUser: Option<User>
    var isAuthenticated: bool
    // Shift
    var isShiftActive: bool
    var currentShift: Option<Shift>
    var shifts: seq<Shift>
    // Products and carts
    var products: seq<Product>
    var cart: seq<CartItem>
    var cartTabs: seq<CartTab>
    var activeTabId: string
    // Sales, notifications, suppliers
    var sales: seq<Sale>
    var notifications: seq<Notification>
    var suppliers: seq<Supplier>
    // Connectivity
    var isOnline: bool
    var pendingSyncs: nat

    /** The tab manager's part of the state. */
    function TabView(): Register
      reads this
    {
      Register(cartTabs, activeTabId, cart)
    }

    /** The store's invariant: the tabs are well formed, the log holds at most
        fifty notifications, the pending counter is the number of unsynced
        sales, and the shift and auth flags agree with what they flag. */
    ghost predicate Valid()
      reads this
    {
      && WellFormed(TabView())
      && |notifications| <= MaxNotifications
      && pendingSyncs == UnsyncedCount(sales)
      && (isShiftActive <==> currentShift.Some?)
      && (isAuthenticated <==> currentUser.Some?)
    }

    /** The initial state; `online` is the browser's connectivity at start-up. */
    constructor (online: bool)
      ensures Valid()
      ensures currentUser == None && !isAuthenticated
      ensures !isShiftActive && currentShift == None && shifts == []
      ensures products == [] && cart == []
      ensures cartTabs == [CartTab("tab-1", "Customer 1", [])] && activeTabId == "tab-1"
      ensures sales == [] && notifications == [] && suppliers == SeedSuppliers
      ensures isOnline == online && pendingSyncs == 0
    {
      currentUser, isAuthenticated := None, false;
      isShiftActive, currentShift, shifts := false, None, [];
      products, cart := [], [];
      cartTabs, activeTabId := [CartTab("tab-1", "Customer 1", [])], "tab-1";
      sales, notifications, suppliers := [], [], SeedSuppliers;
      isOnline, pendingSyncs := online, 0;
      new;
      assert HasTab(cartTabs, activeTabId) by { assert cartTabs[0].id == activeTabId; }
    }

    // ---- Auth ----

    /** `setCurrentUser`: the authenticated flag follows the user. */
    method SetCurrentUser(user: Option<User>)
      requires Valid()
      modifies this`currentUser, this`isAuthenticated
      ensures Valid()
      ensures currentUser == user && isAuthenticated == user.Some?
    {
      currentUser, isAuthenticated := user, user.Some?;
    }

    /** `logout`: forget the user and empty the live cart. The open shift and
        the tabs' snapshots are left as they are. */
    method Logout()
      requires Valid()
      modifies this`currentUser, this`isAuthenticated, this`cart
      ensures Valid()
      ensures currentUser == None && !isAuthenticated && cart == []
    {
      currentUser, isAuthenticated, cart := None, false, [];
    }

    // ---- Catalogue (local writes only) ----

    /** The write `fetchProducts` makes once the server has answered: the
        catalogue becomes the list received. */
    method ReceiveProducts(data: seq<Product>)
      requires Valid()
      modifies this`products
      ensures Valid()
      ensures products == data
    {
      products := data;
    }

    /** The write `addProduct` makes once the server has answered: the
        product the server returned is appended to the catalogue. */
    method ReceiveNewProduct(product: Product)
      requires Valid()
      modifies this`products
      ensures Valid()
      ensures products == old(products) + [product]
    {
      products := products + [product];
    }

    method UpdateProduct(id: int, patch: ProductPatch)
      requires Valid()
      modifies this`products
      ensures Valid()
      ensures products == UpdateProducts(old(products), id, patch)
    {
      products := UpdateProducts(products, id, patch);
    }

    method DeleteProduct(id: int)
      requires Valid()
      modifies this`products
      ensures Valid()
      ensures products == DeleteProducts(old(products), id)
    {
      products := DeleteProducts(products, id);
    }

    /** `updateStock`: write the clamped stock first, then raise the low-stock
        notice if the new stock is above zero and at or below the threshold. */
    method UpdateStock(id: int, delta: real, now: nat)
      requires Valid()
      modifies this`products, this`notifications
      ensures Valid()
      ensures products == AdjustStock(old(products), id, delta)
      ensures notifications == NotifyIf(old(notifications), LowStockNotice(old(products), id, delta), now)
    {
      var found := FindProduct(products, id);
      if found.Some? {
        var product := found.value;
        var newStock := product.stock + delta;
        var before := products;
        products := seq(|before|, i requires 0 <= i < |before| =>
          if before[i].id == id then before[i].(stock := Clamp(newStock)) else before[i]);
        if newStock <= product.lowStockThreshold && newStock > 0.0 {
          AddNotification(NoticeData(LowStock, "Low Stock Alert", RunningLow(product.name, newStock)), now);
        }
      }
    }

    // ---- Cart lines ----

    method AddToCart(product: Product, quantity: real)
      requires Valid()
      modifies this`cart
      ensures Valid()
      ensures cart == AddLine(old(cart), product, quantity)
    {
      cart := AddLine(cart, product, quantity);
    }

    /** `updateCartItem`: a quantity of zero or less is `removeFromCart`. */
    method UpdateCartItem(productId: int, quantity: real)
      requires Valid()
      modifies this`cart
      ensures Valid()
      ensures quantity <= 0.0 ==> cart == RemoveLines(old(cart), productId)
      ensures quantity > 0.0 ==> cart == SetLineQuantity(old(cart), productId, quantity)
    {
      if quantity <= 0.0 {
        RemoveFromCart(productId);
      } else {
        cart := SetLineQuantity(cart, productId, quantity);
      }
    }

    method RemoveFromCart(productId: int)
      requires Valid()
      modifies this`cart
      ensures Valid()
      ensures cart == RemoveLines(old(cart), productId)
    {
      cart := RemoveLines(cart, productId);
    }

    method ClearCart()
      requires Valid()
      modifies this`cart
      ensures Valid()
      ensures cart == []
    {
      cart := [];
    }

    // ---- Sale finalisation ----

    /** `completeSale`: with an empty cart or nobody signed in, nothing happens
        and no sale is returned. Otherwise the cart is recorded as a sale with
        its total, each line's stock is decremented in cart order, the sale is
        put first in the history, the cart is emptied, an offline sale adds one
        to the pending counter, and a payment notification is pushed. There is
        no check for an open shift here. */
    method CompleteSale(paymentMethod: PaymentMethod, mpesaRef: Option<string>, now: nat) returns (result: Option<Sale>)
      requires Valid()
      modifies this`products, this`notifications, this`sales, this`cart, this`pendingSyncs
      ensures Valid()
      ensures old(cart) == [] || currentUser.None? ==>
        && result.None?
        && products == old(products) && notifications == old(notifications)
        && sales == old(sales) && cart == old(cart) && pendingSyncs == old(pendingSyncs)
      ensures old(cart) != [] && currentUser.Some? ==>
        && result == Some(NewSale(old(cart), currentUser.value, paymentMethod, mpesaRef, isOnline, now))
        && sales == [result.value] + old(sales)
        && cart == []
        && pendingSyncs == old(pendingSyncs) + (if isOnline then 0 else 1)
        && products == Decremented(old(products), old(cart))
        && notifications == Push(DecrementNotices(old(products), old(notifications), old(cart), now),
                                 Stamp(PaymentNotice(CartTotal(old(cart)), paymentMethod), now))
    {
      if cart == [] || currentUser.None? {
        return None;
      }
      var lines := cart;
      var sale := Sale(StampedId("sale-", now), lines, CartTotal(lines), paymentMethod, mpesaRef,
                       currentUser.value.id, currentUser.value.name, now, isOnline);
      DecrementStock(lines, now);
      FileSale(sale, now);
      result := Some(sale);
    }

    /** The bookkeeping `completeSale` does once stock is decremented: the
        sale goes first in the history, the cart is emptied, an offline sale
        adds one to the pending counter, and the payment notice is pushed. */
    method FileSale(sale: Sale, now: nat)
      requires Valid()
      modifies this`notifications, this`sales, this`cart, this`pendingSyncs
      ensures Valid()
      ensures sales == [sale] + old(sales)
      ensures cart == []
      ensures pendingSyncs == old(pendingSyncs) + (if sale.synced then 0 else 1)
      ensures notifications == Push(old(notifications), Stamp(PaymentNotice(sale.total, sale.paymentMethod), now))
    {
      UnsyncedCountPrepend(sale, sales);
      sales := [sale] + sales;
      cart := [];
      pendingSyncs := if sale.synced then pendingSyncs else pendingSyncs + 1;
      AddNotification(PaymentNotice(sale.total, sale.paymentMethod), now);
    }

    /** `cart.forEach(item => updateStock(item.product.id, -item.quantity))`. */
    method DecrementStock(lines: seq<CartItem>, now: nat)
      requires Valid()
      modifies this`products, this`notifications
      ensures Valid()
      ensures products == Decremented(old(products), lines)
      ensures notifications == DecrementNotices(old(products), old(notifications), lines, now)
    {
      ghost var catalogue, log := products, notifications;
      var i := 0;
      while i < |lines|
        invariant 0 <= i <= |lines|
        invariant Valid()
        invariant Decremented(products, lines[i..]) == Decremented(catalogue, lines)
        invariant DecrementNotices(products, notifications, lines[i..], now) == DecrementNotices(catalogue, log, lines, now)
      {
        ghost var before, seen := products, notifications;
        UpdateStock(lines[i].product.id, -lines[i].quantity, now);
        DecrementedStep(lines, i, before, Decremented(catalogue, lines));
        DecrementNoticesStep(lines, i, now, before, seen, DecrementNotices(catalogue, log, lines, now));
        i := i + 1;
      }
      assert lines[i..] == [];
    }

    // ---- Notifications ----

    method AddNotification(data: NoticeData, now: nat)
      requires Valid()
      modifies this`notifications
      ensures Valid()
      ensures notifications == Push(old(notifications), Stamp(data, now))
    {
      notifications := Push(notifications, Stamp(data, now));
    }

    method MarkNotificationRead(id: string)
      requires Valid()
      modifies this`notifications
      ensures Valid()
      ensures notifications == MarkRead(old(notifications), id)
    {
      notifications := MarkRead(notifications, id);
    }

    method ClearNotifications()
      requires Valid()
      modifies this`notifications
      ensures Valid()
      ensures notifications == []
    {
      notifications := [];
    }

    // ---- Suppliers ----

    method AddSupplier(name: string, phone: string, goods: seq<string>, now: nat)
      requires Valid()
      modifies this`suppliers
      ensures Valid()
      ensures suppliers == AddSupplierTo(old(suppliers), name, phone, goods, now)
    {
      suppliers := AddSupplierTo(suppliers, name, phone, goods, now);
    }

    method DeleteSupplier(id: string)
      requires Valid()
      modifies this`suppliers
      ensures Valid()
      ensures suppliers == DeleteSupplierFrom(old(suppliers), id)
    {
      suppliers := DeleteSupplierFrom(suppliers, id);
    }

    // ---- Connectivity and sync ----

    /** `syncPendingSales`: every sale is marked synced and the counter reset;
        one notification is pushed only if some sale was unsynced. Nothing is
        re-sent to the server. */
    method SyncPendingSales(now: nat)
      requires Valid()
      modifies this`sales, this`pendingSyncs, this`notifications
      ensures Valid()
      ensures sales == MarkAllSynced(old(sales)) && pendingSyncs == 0
      ensures forall i :: 0 <= i < |sales| ==> sales[i].synced
      ensures notifications == if UnsyncedCount(old(sales)) > 0
        then Push(old(notifications), Stamp(SyncNotice(UnsyncedCount(old(sales))), now))
        else old(notifications)
    {
      var unsynced := Unsynced(sales);
      MarkAllSyncedLeavesNone(sales);
      sales := MarkAllSynced(sales);
      pendingSyncs := 0;
      if |unsynced| > 0 {
        AddNotification(SyncNotice(|unsynced|), now);
      }
    }

    /** `setOnlineStatus`: going online with sales pending runs the sync, so
        after going online every sale is synced. */
    method SetOnlineStatus(status: bool, now: nat)
      requires Valid()
      modifies this`isOnline, this`sales, this`pendingSyncs, this`notifications
      ensures Valid()
      ensures isOnline == status
      ensures status && old(pendingSyncs) > 0 ==>
        && sales == MarkAllSynced(old(sales)) && pendingSyncs == 0
        && notifications == Push(old(notifications), Stamp(SyncNotice(old(pendingSyncs)), now))
      ensures !(status && old(pendingSyncs) > 0) ==>
        sales == old(sales) && pendingSyncs == old(pendingSyncs) && notifications == old(notifications)
      ensures status ==> forall i :: 0 <= i < |sales| ==> sales[i].synced
    {
      isOnline := status;
      if status && pendingSyncs > 0 {
        SyncPendingSales(now);
      } else if status {
        UnsyncedCountZeroIff(sales);
      }
    }

    // ---- Shifts ----

    /** `startShift`: needs a signed-in user; opens a new shift for them even
        if one is already open, which is then lost without being archived. */
    method StartShift(now: nat)
      requires Valid()
      modifies this`isShiftActive, this`currentShift
      ensures Valid()
      ensures currentUser.None? ==> isShiftActive == old(isShiftActive) && currentShift == old(currentShift)
      ensures currentUser.Some? ==>
        && isShiftActive
        && currentShift == Some(Shift(StampedId("shift-", now), currentUser.value.id, currentUser.value.name, now, None))
    {
      if currentUser.None? {
        return;
      }
      var user := currentUser.value;
      isShiftActive := true;
      currentShift := Some(Shift(StampedId("shift-", now), user.id, user.name, now, None));
    }

    /** `endShift`: with no open shift nothing happens; otherwise the shift is
        stamped with its end time and put first in the history. */
    method EndShift(now: nat)
      requires Valid()
      modifies this`isShiftActive, this`currentShift, this`shifts
      ensures Valid()
      ensures old(currentShift).None? ==> isShiftActive == old(isShiftActive) && currentShift == old(currentShift) && shifts == old(shifts)
      ensures old(currentShift).Some? ==>
        && !isShiftActive && currentShift.None?
        && shifts == [old(currentShift).value.(endTime := Some(now))] + old(shifts)
    {
      if currentShift.Some? {
        var ended := currentShift.value.(endTime := Some(now));
        isShiftActive, currentShift, shifts := false, None, [ended] + shifts;
      }
    }

    // ---- Cart tabs ----

    /** `addCartTab`. The clock reading must give an id no tab has yet. */
    method AddCartTab(now: nat)
      requires Valid() && !HasTab(cartTabs, TabId(now))
      modifies this`cartTabs, this`activeTabId, this`cart
      ensures Valid()
      ensures TabView() == AddTab(old(TabView()), TabId(now))
    {
      AddTabSpec(TabView(), TabId(now));
      var updated := SaveCart(cartTabs, activeTabId, cart);
      var newId := TabId(now);
      var newTab := CartTab(newId, Label(|updated| + 1), []);
      cartTabs, activeTabId, cart := updated + [newTab], newId, [];
    }

    method SwitchCartTab(id: string)
      requires Valid()
      modifies this`cartTabs, this`activeTabId, this`cart
      ensures Valid()
      ensures TabView() == SwitchTab(old(TabView()), id)
    {
      SwitchTabSpec(TabView(), id);
      if id == activeTabId {
        return;
      }
      var updated := SaveCart(cartTabs, activeTabId, cart);
      var target := FindTab(updated, id);
      if target.Some? {
        cartTabs, activeTabId, cart := updated, id, target.value.items;
      }
    }

    method RemoveCartTab(id: string)
      requires Valid()
      modifies this`cartTabs, this`activeTabId, this`cart
      ensures Valid()
      ensures TabView() == CloseTab(old(TabView()), id)
    {
      CloseTabSpec(TabView(), id);
      if |cartTabs| <= 1 {
        return;
      }
      RemoveTabsDistinct(cartTabs, id);
      var newTabs := RemoveTabs(cartTabs, id);
      if id == activeTabId {
        cartTabs, activeTabId, cart := newTabs, newTabs[0].id, newTabs[0].items;
      } else {
        cartTabs := newTabs;
      }
    }
  }
}

=== FILE: suppliers.dfy ===
/** The supplier list: administrative records that are only added and deleted. */
module Suppliers {
  import opened Prelude
  import opened Entities

  /** The three suppliers a fresh store starts with. */
  const SeedSuppliers: seq<Supplier> := [
    Supplier("1", "Broadways Bakery", "254700000001", ["Bread", "Buns", "Scones"]),
    Supplier("2", "KCC Dairy", "254700000002", ["Milk", "Mala", "Yoghurt"]),
    Supplier("3", "Pwani Oil", "254700000003", ["Fresh Fri", "Salit", "Popcorn Oil"])
  ]

  /** `addSupplier`: append a supplier whose id is taken from the clock. */
  function AddSupplierTo(suppliers: seq<Supplier>, name: string, phone: string, goods: seq<string>, now: nat): (r: seq<Supplier>)
    ensures |r| == |suppliers| + 1 && r[..|suppliers|] == suppliers
    ensures r[|suppliers|] == Supplier(StampedId("sup-", now), name, phone, goods)
  {
    suppliers + [Supplier(StampedId("sup-", now), name, phone, goods)]
  }

  /** `deleteSupplier`: keep the suppliers with another id. */
  function DeleteSupplierFrom(suppliers: seq<Supplier>, id: string): (r: seq<Supplier>)
    ensures |r| <= |suppliers|
    ensures forall i :: 0 <= i < |r| ==> r[i] in suppliers && r[i].id != id
    ensures forall i :: 0 <= i < |suppliers| && suppliers[i].id != id ==> suppliers[i] in r
  {
    var keep := (s: Supplier) => s.id != id;
    FilterSpec(suppliers, keep);
    Filter(suppliers, keep)
  }

  predicate DistinctSupplierIds(suppliers: seq<Supplier>)
  {
    forall i, j :: 0 <= i < j < |suppliers| ==> suppliers[i].id != suppliers[j].id
  }

  /** With distinct ids, deleting the id of a supplier takes out exactly that
      supplier and keeps the others once each, in order; deleting an id no
      supplier has changes nothing. */
  lemma {:induction false} DeleteSupplierFromDistinct(suppliers: seq<Supplier>, id: string)
    requires DistinctSupplierIds(suppliers)
    ensures (forall i :: 0 <= i < |suppliers| ==> suppliers[i].id != id) ==> DeleteSupplierFrom(suppliers, id) == suppliers
    ensures forall k :: 0 <= k < |suppliers| && suppliers[k].id == id ==>
      DeleteSupplierFrom(suppliers, id) == suppliers[..k] + suppliers[k + 1..]
  {
    var keep := (s: Supplier) => s.id != id;
    if k :| 0 <= k < |suppliers| && suppliers[k].id == id {
      FilterDropsOne(suppliers, keep, k);
      assert forall k' :: 0 <= k' < |suppliers| && suppliers[k'].id == id ==> k' == k;
    } else {
      FilterKeepsAll(suppliers, keep);
    }
  }

  /** Deleting a supplier just added, under an id nobody else has, gives back
      the list as it was. */
  lemma {:induction false} DeleteUndoesAdd(suppliers: seq<Supplier>, name: string, phone: string, goods: seq<string>, now: nat)
    requires forall i :: 0 <= i < |suppliers| ==> suppliers[i].id != StampedId("sup-", now)
    ensures DeleteSupplierFrom(AddSupplierTo(suppliers, name, phone, goods, now), StampedId("sup-", now)) == suppliers
  {
    var added := AddSupplierTo(suppliers, name, phone, goods, now);
    var id := StampedId("sup-", now);
    FilterDropsOne(added, (s: Supplier) => s.id != id, |suppliers|);
    assert added[..|suppliers|] + added[|suppliers| + 1..] == suppliers;
  }
}

=== FILE: tabs.dfy ===
/** The cart tab manager: several customers' carts held at once. The live
    cart (`cart`) is kept apart from the snapshots stored in the tabs
    (`cartTabs`); `activeTabId` names the tab the live cart belongs to. A
    `Register` is that triple of store fields, and `AddTab`, `SwitchTab` and
    `CloseTab` are `addCartTab`, `switchCartTab` and `removeCartTab` on it. */
module Tabs {
  import opened Prelude
  import opened Entities
  import opened Cart

  datatype Register = Register(tabs: seq<CartTab>, activeId: string, cart: seq<CartItem>)

  predicate HasTab(tabs: seq<CartTab>, id: string)
  {
    exists i :: 0 <= i < |tabs| && tabs[i].id == id
  }

  predicate DistinctIds(tabs: seq<CartTab>)
  {
    forall i, j :: 0 <= i < j < |tabs| ==> tabs[i].id != tabs[j].id
  }

  /** What the store keeps true of its tabs: at least one tab, distinct ids,
      the active id names a tab, and every cart holds one line per product. */
  ghost predicate WellFormed(r: Register)
  {
    && 1 <= |r.tabs|
    && DistinctIds(r.tabs)
    && HasTab(r.tabs, r.activeId)
    && UniqueLines(r.cart)
    && forall i :: 0 <= i < |r.tabs| ==> UniqueLines(r.tabs[i].items)
  }

  /** The label a new tab gets when it becomes the `n`-th tab. */
  function Label(n: nat): (text: string)
    ensures |text| > 9 && text[..9] == "Customer " && text[9..] == Decimal(n)
  {
    "Customer " + Decimal(n)
  }

  /** Write the live cart into the tab whose id is `activeId`. */
  function SaveCart(tabs: seq<CartTab>, activeId: string, cart: seq<CartItem>): (r: seq<CartTab>)
    ensures |r| == |tabs|
    ensures forall i :: 0 <= i < |tabs| ==> r[i].id == tabs[i].id && r[i].caption == tabs[i].caption
    ensures forall i :: 0 <= i < |tabs| && tabs[i].id == activeId ==> r[i].items == cart
    ensures forall i :: 0 <= i < |tabs| && tabs[i].id != activeId ==> r[i] == tabs[i]
  {
    seq(|tabs|, i requires 0 <= i < |tabs| => if tabs[i].id == activeId then tabs[i].(items := cart) else tabs[i])
  }

  function FindTab(tabs: seq<CartTab>, id: string): (r: Option<CartTab>)
    ensures r.None? <==> !HasTab(tabs, id)
    ensures r.Some? ==> r.value in tabs && r.value.id == id
  {
    Find(tabs, (t: CartTab) => t.id == id)
  }

  function RemoveTabs(tabs: seq<CartTab>, id: string): (r: seq<CartTab>)
    ensures |r| <= |tabs|
  {
    Filter(tabs, (t: CartTab) => t.id != id)
  }

  /** With distinct ids, looking up the id of a tab finds that tab. */
  lemma {:induction false} FindTabDistinct(tabs: seq<CartTab>, k: nat)
    requires DistinctIds(tabs) && k < |tabs|
    ensures FindTab(tabs, tabs[k].id) == Some(tabs[k])
  {
    FindFirst(tabs, (t: CartTab) => t.id == tabs[k].id, k);
  }

  /** With distinct ids, removing the id of a tab takes out exactly that tab;
      removing an id no tab has changes nothing. */
  lemma {:induction false} RemoveTabsDistinct(tabs: seq<CartTab>, id: string)
    requires DistinctIds(tabs)
    ensures !HasTab(tabs, id) ==> RemoveTabs(tabs, id) == tabs
    ensures forall k :: 0 <= k < |tabs| && tabs[k].id == id ==> RemoveTabs(tabs, id) == tabs[..k] + tabs[k + 1..]
    ensures DistinctIds(RemoveTabs(tabs, id))
    ensures |RemoveTabs(tabs, id)| == if HasTab(tabs, id) then |tabs| - 1 else |tabs|
  {
    var keep := (t: CartTab) => t.id != id;
    if k :| 0 <= k < |tabs| && tabs[k].id == id {
      FilterDropsOne(tabs, keep, k);
      var r := tabs[..k] + tabs[k + 1..];
      forall i, j | 0 <= i < j < |r| ensures r[i].id != r[j].id {
        var i', j' := if i < k then i else i + 1, if j < k then j else j + 1;
        assert r[i] == tabs[i'] && r[j] == tabs[j'];
      }
      assert forall k' :: 0 <= k' < |tabs| && tabs[k'].id == id ==> k' == k;
    } else {
      FilterKeepsAll(tabs, keep);
    }
  }

  /** `addCartTab`: save the live cart into the active tab, append a new empty
      tab with the next customer label and make it active with an empty cart. */
  function AddTab(r: Register, newId: string): (r': Register)
    ensures |r'.tabs| == |r.tabs| + 1 && r'.activeId == newId && r'.cart == []
  {
    var saved := SaveCart(r.tabs, r.activeId, r.cart);
    Register(saved + [CartTab(newId, Label(|saved| + 1), [])], newId, [])
  }

  /** `switchCartTab`: nothing happens for the active id or an unknown id;
      otherwise the live cart is saved into the outgoing tab and the target
      tab's items become the live cart. */
  function SwitchTab(r: Register, id: string): (r': Register)
    ensures |r'.tabs| == |r.tabs|
    ensures r'.activeId == r.activeId || r'.activeId == id
    ensures r'.activeId == r.activeId ==> r' == r
  {
    if id == r.activeId then r
    else
      var saved := SaveCart(r.tabs, r.activeId, r.cart);
      match FindTab(saved, id)
      case None => r
      case Some(target) => Register(saved, id, target.items)
  }

  /** `removeCartTab`: the last tab is never removed. Removing the active tab
      makes the first remaining tab active and loads its items; the live cart
      of the removed tab is dropped. Removing another tab touches nothing else.
      The source indexes the first remaining tab without checking that one
      remains, which distinct ids guarantee. */
  function CloseTab(r: Register, id: string): (r': Register)
    requires DistinctIds(r.tabs)
    ensures 1 <= |r.tabs| ==> 1 <= |r'.tabs|
    ensures |r.tabs| - 1 <= |r'.tabs| <= |r.tabs|
  {
    if |r.tabs| <= 1 then r
    else
      var rest := RemoveTabs(r.tabs, id);
      RemoveTabsDistinct(r.tabs, id);
      if id == r.activeId then Register(rest, rest[0].id, rest[0].items)
      else r.(tabs := rest)
  }

  /** Adding a tab: the outgoing tab keeps the live cart, every other tab is
      unchanged, exactly one empty tab labelled "Customer n+1" is appended and
      becomes active, and the live cart is empty. */
  lemma {:induction false} AddTabSpec(r: Register, newId: string)
    requires WellFormed(r) && !HasTab(r.tabs, newId)
    ensures var r' := AddTab(r, newId);
      && WellFormed(r')
      && |r'.tabs| == |r.tabs| + 1
      && r'.tabs[|r.tabs|] == CartTab(newId, Label(|r.tabs| + 1), [])
      && r'.activeId == newId
      && r'.cart == []
      && (forall i :: 0 <= i < |r.tabs| && r.tabs[i].id == r.activeId ==> r'.tabs[i] == r.tabs[i].(items := r.cart))
      && (forall i :: 0 <= i < |r.tabs| && r.tabs[i].id != r.activeId ==> r'.tabs[i] == r.tabs[i])
  {
    var r' := AddTab(r, newId);
    var saved := SaveCart(r.tabs, r.activeId, r.cart);
    assert r'.tabs == saved + [CartTab(newId, Label(|r.tabs| + 1), [])];
    assert r'.tabs[|r.tabs|].id == newId;
    forall i, j | 0 <= i < j < |r'.tabs| ensures r'.tabs[i].id != r'.tabs[j].id {
      if j == |r.tabs| {
        assert r'.tabs[i].id == r.tabs[i].id;
      } else {
        assert r'.tabs[i].id == r.tabs[i].id && r'.tabs[j].id == r.tabs[j].id;
      }
    }
    forall i | 0 <= i < |r'.tabs| ensures UniqueLines(r'.tabs[i].items) {
      if i < |r.tabs| {
        assert r'.tabs[i] == saved[i];
      }
    }
  }

  /** Switching tabs: the active id or an unknown id changes nothing; otherwise
      the outgoing tab receives the live cart, the target's items become the
      live cart, and every other tab is left exactly as it was. */
  lemma {:induction false} SwitchTabSpec(r: Register, id: string)
    requires WellFormed(r)
    ensures WellFormed(SwitchTab(r, id))
    ensures id == r.activeId || !HasTab(r.tabs, id) ==> SwitchTab(r, id) == r
    ensures id != r.activeId && HasTab(r.tabs, id) ==>
      var r' := SwitchTab(r, id);
      && r'.activeId == id
      && |r'.tabs| == |r.tabs|
      && (forall i :: 0 <= i < |r.tabs| ==> r'.tabs[i].id == r.tabs[i].id)
      && (forall i :: 0 <= i < |r.tabs| && r.tabs[i].id == r.activeId ==> r'.tabs[i] == r.tabs[i].(items := r.cart))
      && (forall i :: 0 <= i < |r.tabs| && r.tabs[i].id != r.activeId ==> r'.tabs[i] == r.tabs[i])
      && (forall i :: 0 <= i < |r.tabs| && r.tabs[i].id == id ==> r'.cart == r.tabs[i].items)
  {
    if id != r.activeId {
      var saved := SaveCart(r.tabs, r.activeId, r.cart);
      assert DistinctIds(saved) by {
        forall i, j | 0 <= i < j < |saved| ensures saved[i].id != saved[j].id {
          assert saved[i].id == r.tabs[i].id && saved[j].id == r.tabs[j].id;
        }
      }
      if k :| 0 <= k < |r.tabs| && r.tabs[k].id == id {
        FindTabDistinct(saved, k);
        assert saved[k] == r.tabs[k];
        assert forall i :: 0 <= i < |r.tabs| && r.tabs[i].id == id ==> i == k;
        var r' := SwitchTab(r, id);
        assert r' == Register(saved, id, r.tabs[k].items);
        assert HasTab(saved, id);
        forall i | 0 <= i < |saved| ensures UniqueLines(saved[i].items) {
          if r.tabs[i].id == r.activeId { assert saved[i].items == r.cart; }
        }
      } else {
        assert FindTab(saved, id).None? by {
          forall i | 0 <= i < |saved| ensures saved[i].id != id {
            assert saved[i].id == r.tabs[i].id;
          }
        }
      }
    }
  }

  /** Switching to another tab and straight back restores the live cart; the
      only trace left is that the first tab's snapshot now holds that cart. */
  lemma {:induction false} SwitchBackRestores(r: Register, id: string)
    requires WellFormed(r) && id != r.activeId && HasTab(r.tabs, id)
    ensures SwitchTab(SwitchTab(r, id), r.activeId) == r.(tabs := SaveCart(r.tabs, r.activeId, r.cart))
  {
    var saved := SaveCart(r.tabs, r.activeId, r.cart);
    var k :| 0 <= k < |r.tabs| && r.tabs[k].id == id;
    var a :| 0 <= a < |r.tabs| && r.tabs[a].id == r.activeId;
    assert DistinctIds(saved) by {
      forall i, j | 0 <= i < j < |saved| ensures saved[i].id != saved[j].id {
        assert saved[i].id == r.tabs[i].id && saved[j].id == r.tabs[j].id;
      }
    }
    FindTabDistinct(saved, k);
    assert saved[k] == r.tabs[k];
    var r1 := Register(saved, id, r.tabs[k].items);
    assert SwitchTab(r, id) == r1;
    var saved2 := SaveCart(saved, id, r.tabs[k].items);
    assert saved2 == saved by {
      forall i | 0 <= i < |saved| ensures saved2[i] == saved[i] {
        if saved[i].id == id {
          assert saved[i].id == r.tabs[i].id;
          assert i == k;
        }
      }
    }
    FindTabDistinct(saved, a);
    assert saved[a].items == r.cart;
  }

  /** Tab isolation: whatever is done to the cart of tab `b`, switching back to
      the first tab brings back exactly the cart it was left with. */
  lemma {:induction false} TabIsolation(r: Register, b: string, edited: seq<CartItem>)
    requires WellFormed(r) && b != r.activeId && HasTab(r.tabs, b) && UniqueLines(edited)
    ensures SwitchTab(SwitchTab(r, b).(cart := edited), r.activeId).cart == r.cart
  {
    SwitchTabSpec(r, b);
    var r1 := SwitchTab(r, b).(cart := edited);
    var a :| 0 <= a < |r.tabs| && r.tabs[a].id == r.activeId;
    assert r1.tabs[a].id == r.activeId;
    SwitchTabSpec(r1, r.activeId);
  }

  /** Removing a tab: there is always a tab left and a sole tab is never
      removed; removing the active tab activates the first remaining one and
      loads its items; removing another tab keeps the active id and live cart. */
  lemma {:induction false} CloseTabSpec(r: Register, id: string)
    requires WellFormed(r)
    ensures WellFormed(CloseTab(r, id))
    ensures |r.tabs| == 1 ==> CloseTab(r, id) == r
    ensures |r.tabs| > 1 ==> CloseTab(r, id).tabs == RemoveTabs(r.tabs, id)
    ensures |r.tabs| > 1 && HasTab(r.tabs, id) ==> |CloseTab(r, id).tabs| == |r.tabs| - 1
    ensures |r.tabs| > 1 && id == r.activeId ==>
      var r' := CloseTab(r, id);
      r'.activeId == r'.tabs[0].id && r'.cart == r'.tabs[0].items
    ensures id != r.activeId ==>
      CloseTab(r, id).activeId == r.activeId && CloseTab(r, id).cart == r.cart
  {
    if |r.tabs| > 1 {
      RemoveTabsDistinct(r.tabs, id);
      var rest := RemoveTabs(r.tabs, id);
      assert forall i :: 0 <= i < |rest| ==> rest[i] in r.tabs;
      forall i | 0 <= i < |rest| ensures UniqueLines(rest[i].items) {
        var j :| 0 <= j < |r.tabs| && r.tabs[j] == rest[i];
      }
      if id != r.activeId {
        var a :| 0 <= a < |r.tabs| && r.tabs[a].id == r.activeId;
        assert r.tabs[a] in rest;
      } else {
        assert HasTab(rest, rest[0].id);
      }
    }
  }
}
